=== FILE: README.md ===
# TUI-Kanban core in Dafny

This project models the core of TUI-Kanban, a terminal kanban board written in Rust. That core is three parts:

- **The data model** (`board.rs`). A `Project` has a name and a `Board`. A board is an ordered list of `BoardColumn`s, and each column has a stable `id`, an editable `name` and an ordered list of `Task`s. A task has a title, a description and an insertion-ordered set of tags (`add_tag` ignores duplicates).
- **The application state machine** (`app.rs`). It holds the project collection, the current project and an index-based selection: column, task, scroll offset and highlighted project. It also holds an input mode, a text buffer and the focused detail-view field. Every mutating operation ends in `save`, which writes the whole collection.
- **Storage** (`storage.rs`). Two legacy shapes are converted into the current one, and `load_projects` tries three files from newest to oldest. If a legacy file is found, the converted result is written back in the current format.

The model is purely functional:

- The state is the immutable record `AppState.App`.
- Every `App` method is a total or partial function from `App` to `App`.
- `save` is modelled as the field `lastSaved`, the collection most recently handed to `save_projects`.
- `load_projects` is a function of the parse outcome of each of its three files (`None` means absent or unparsable). It returns the projects together with the collection it wrote back, if any.

The invariant that keeps every method defined is `AppState.Invariant`:

- at least one project exists;
- every board has a column;
- the current and highlighted projects exist;
- the selected column exists;
- the selected task exists, or its column is empty and the index is 0.

`Machine.Step` applies the `App` methods as `Intent`s and is proved to preserve the invariant and to have written every change. A few methods are reached only in the way the key map reaches them. `remove_tag` is reached through a digit key with Tags focused, so only for indices 0 to 8. `start_editing_title` and `start_editing_description` are reached only through `Activate`, on the focused field. `update_scroll` runs only after a move. `Machine.Run` extends this to whole runs. `Step` uses the corrected definitions listed under "## Findings". Startup with the corrected load satisfies the invariant.

Modules, one per file:

- `Wrappers` holds `Option`.
- `Seqs` holds `RemoveAt`, `Swap` and `NoDuplicates`.
- `BoardModel` models `board.rs`.
- `Storage` models `storage.rs`.
- `AppState` holds the `App` record, its accessors and its invariants.
- `app.rs` is split across:
  - `Navigation`: selection and scrolling;
  - `TaskOps`: tasks, tags and the detail view;
  - `ColumnOps`: column management;
  - `Submit`: the input buffer and `submit_input`;
  - `ProjectOps`: the project list.
- `Machine` holds the step function and the whole-run properties.

Integers are unbounded `nat`s. A `len() - 1` on an empty vector (for example at src/app.rs:109, 274 and 487) would underflow `usize`: a debug build panics, and a release build wraps to `usize::MAX`. The model makes its absence a precondition, which the invariant discharges, so neither outcome is modelled.

## Model

| member | source | states |
|---|---|---|
| BoardModel.NewProject | src/board.rs:20-25 | a new project has the given name and a fresh board with the four canonical columns, all empty |
| BoardModel.NewTask | src/board.rs:30-36 | a new task has the given title, no tags and an empty description |
| BoardModel.Contains | src/board.rs:40 | the linear scan answers exactly whether the tag is in the list |
| BoardModel.AddTag | src/board.rs:39-43 | after adding, the tag is present; an existing tag leaves the task unchanged, a new one is appended last; title and description are kept; the tag set becomes old tags plus the new one; duplicate-freedom is preserved |
| BoardModel.AddTagIdempotent | src/board.rs:39-43 | adding the same tag twice is the same as adding it once |
| BoardModel.AddTagsIsOrderedUnion | src/board.rs:39-43 | adding a sequence of tags one by one yields an insertion-ordered set union: no duplicates, earlier tags keep their positions, exactly the old and added tags are present |
| BoardModel.NewColumn | src/board.rs:102-108 | a new column has the given id and name and no tasks |
| BoardModel.NewBoard | src/board.rs:119-128 | a new board has exactly the canonical ids `todo`, `in_progress`, `testing`, `done` and labels, in order, all empty; its column ids are pairwise different |
| BoardModel.GetColumn | src/board.rs:131-133 | the lookup yields a column exactly when the index is in range, and then the column at that index |
| BoardModel.PutColumn | src/board.rs:136-138 | a write through the mutable lookup replaces exactly that column and leaves the others readable as before |
| Storage.BoardFromLegacy | src/storage.rs:24-51 | a legacy board becomes the canonical four-column layout whose k-th column holds the k-th fixed list; the multiset of all tasks is the sum of the four lists |
| Storage.LegacyRoundTrip | src/storage.rs:24-51 | reading the four lists back from a converted board gives the legacy board again |
| Storage.LegacyOfInverts | src/storage.rs:24-51 | every board of canonical layout is the conversion of the legacy board read from it |
| Storage.EmptyLegacyIsNewBoard | src/storage.rs:24-51 | an empty legacy board converts to the same board as `Board::new` |
| Storage.ProjectFromLegacy | src/storage.rs:54-61 | the project keeps its name and its board reads back as the legacy board |
| Storage.ProjectsFromLegacy | src/storage.rs:125 | the element-wise conversion keeps the length, order, names and boards of the legacy projects |
| Storage.LoadProjects | src/storage.rs:107-152 | the first file that parses wins; a current-format file is returned as is with nothing written; a legacy file is converted element-wise and the converted collection is written back; with nothing on disk a single empty "Default" project is returned and nothing is written |
| Storage.MigrationIsIdempotent | src/storage.rs:112-131 | after a migration has written its result, the next load takes that result from the current-format file and writes nothing, whatever legacy files remain |
| Storage.LoadMayReturnNoProjects | src/storage.rs:113-128 | a current or intermediate file holding `[]` makes the cascade return no project |
| Storage.LoadProjectsCorrected | src/storage.rs:107-152 | the corrected cascade always returns a usable collection; it agrees with the written one whenever the current file is usable; anything it writes is what it returns |
| Storage.CorrectedMigrationIsIdempotent | src/storage.rs:107-152 | the corrected cascade is idempotent after a migration in the same way |
| Storage.OldestBoardScenario | src/storage.rs:133-145 | with the cascade as written, a lone legacy `board.json` loads as one "Default" project whose canonical columns hold its four lists, is written back, and reloads unchanged without a second conversion; the corrected cascade gives the same result |
| AppState.New | src/app.rs:45-59 | the initial state selects project 0, column 0, task 0, scroll 0, five visible cards, Normal mode, an empty buffer and Title focus; it is valid exactly when the loaded collection is usable |
| AppState.Save | src/app.rs:77-79 | saving records the whole current collection as written and changes nothing else |
| AppState.CancelInput | src/app.rs:300-303 | cancelling returns to Normal with an empty buffer and touches no data, selection or record of writes |
| AppState.CurrentBoard | src/app.rs:62-64 | the plain accessor `board()`: the current project's board; it carries no contract, and callers require `current_project` to be in range |
| AppState.UpdateTask | src/app.rs:332-371 | the shared in-place update of the selected task: that task becomes the given one, every other task, column and project is kept, and the selection, scroll offset and record of writes are unchanged |
| AppState.WithBoard | src/app.rs:67-69 | writing through `board_mut` replaces only the current project's board; every other project and the current project's name are kept |
| Navigation.MoveUp | src/app.rs:82-86 | the task index drops by one unless it is 0; only the index changes; validity and selection range are kept |
| Navigation.MoveDown | src/app.rs:89-97 | the task index rises by one only while below the last task of the selected column; only the index changes |
| Navigation.MoveLeft | src/app.rs:100-105 | from a column other than the first, the selection moves one column left and is re-clamped: an empty destination resets index and scroll offset to 0, an index the destination holds is kept with the offset, and an index past its end becomes its last task; from the first column nothing changes |
| Navigation.MoveRight | src/app.rs:108-113 | before the last column, the selection moves one column right and is re-clamped: an empty destination resets index and scroll offset to 0, an index the destination holds is kept with the offset, and an index past its end becomes its last task; at the last column nothing changes |
| Navigation.ClampSelection | src/app.rs:116-127 | afterwards the selection is in range; an in-range index is untouched; an empty column resets index and scroll to 0; an index past the end becomes the last task |
| Navigation.UpdateScroll | src/app.rs:130-159 | with a nonzero viewport the offset never exceeds `len - visible`, and a selection inside the column lies inside the window; a selection below the window puts the window's last row on it (`selected - visible + 1`, clamped to `len - visible`); a selection above the window becomes the offset, clamped the same way; a selection already in the window keeps the offset unless it lies past `len - visible`, where it becomes exactly `len - visible`; only the offset changes |
| Navigation.UpdateScrollIdempotent | src/app.rs:130-159 | recomputing the offset a second time changes nothing |
| TaskOps.TaskMovedKeepsTasks | src/app.rs:162-212 | removing a task from one column and appending it to another keeps the multiset of all tasks on the board |
| TaskOps.TransferTask | src/app.rs:170-184 | the selected task leaves its column and is appended to the target column; the other columns are unchanged, no task is created or lost; the selection is re-clamped on the column's new contents: an index it still holds is kept with the scroll offset, an index past its end becomes its last task, and an emptied column resets index and offset to 0; mode, buffer, focus, viewport and highlighted project are kept; the board is saved |
| TaskOps.MoveTaskForward | src/app.rs:162-186 | with a task selected and a next column present, the task moves to the end of the next column, the multiset of tasks is kept, the selected column stays, the selection is re-clamped on the column's new contents: an index it still holds is kept with the scroll offset, an index past its end becomes its last task, and an emptied column resets index and offset to 0, and the result is saved; otherwise nothing changes |
| TaskOps.MoveTaskBackward | src/app.rs:189-212 | with a task selected outside the first column, the task moves to the end of the previous column, the multiset of tasks is kept, the selected column stays, the selection is re-clamped on the column's new contents: an index it still holds is kept with the scroll offset, an index past its end becomes its last task, and an emptied column resets index and offset to 0, and the result is saved; otherwise nothing changes |
| TaskOps.DeleteTask | src/app.rs:215-224 | with a task selected, exactly that task leaves the board (multiset minus one); the selection is re-clamped on the column's new contents: an index it still holds is kept with the scroll offset, an index past its end becomes its last task, and an emptied column resets index and offset to 0; the board is saved; otherwise nothing changes |
| TaskOps.StartAddingTask | src/app.rs:283-286 | enters AddingTask with an empty buffer; every other field, the focused field included, is kept and no data is touched |
| TaskOps.StartAddingTag | src/app.rs:289-297 | enters AddingTag with an empty buffer only when a task is selected; otherwise nothing changes; no other field, the focused field included, ever changes |
| TaskOps.OpenTask | src/app.rs:413-420 | opens the detail view focused on the title only over an existing task; otherwise nothing changes |
| TaskOps.NextField | src/app.rs:423-429 | the focus always moves to a different field, Title goes to Tags, and nothing else changes; with the three-step cycle this fixes the ring Title, Tags, Description |
| TaskOps.NextFieldCycles | src/app.rs:423-429 | the focus returns after exactly three steps |
| TaskOps.StartEditingTitle | src/app.rs:432-439 | over a selected task, enters EditingTitle with the buffer holding the current title; otherwise nothing changes |
| TaskOps.StartEditingDescription | src/app.rs:442-449 | over a selected task, enters EditingDescription with the buffer holding the current description; otherwise nothing changes |
| TaskOps.ActivateField | src/main.rs:156-163 | Enter in the detail view starts the editor of the focused field: Title focus is `start_editing_title`, Description focus is `start_editing_description`; with Tags focused nothing changes; no data changes |
| TaskOps.RemoveTag | src/app.rs:452-464 | an in-range tag index removes exactly that tag from the selected task and saves; any other index, or no selected task, changes nothing; only the data and the record of writes ever change |
| TaskOps.TagKey | src/main.rs:164-170 | with Tags focused, digit `1` to `9` removes the tag at `digit - 1`; otherwise nothing changes |
| TaskOps.ShowHelp | src/app.rs:511-513 | enters ViewingHelp; every other field, the buffer and the focused field included, is kept |
| TaskOps.CloseView | src/app.rs:516-519 | returns to Normal with an empty buffer; every other field, the focused field included, is kept |
| ColumnOps.StartAddingColumn | src/app.rs:228-231 | enters AddingColumn with an empty buffer; every other field, the focused field included, is kept |
| ColumnOps.StartRenamingColumn | src/app.rs:233-238 | over an existing column, enters RenamingColumn with the buffer holding its name; otherwise nothing changes; no other field, the focused field included, ever changes |
| ColumnOps.DeleteColumn | src/app.rs:240-262 | only an empty, existing column of a board with two or more columns is removed; the multiset of tasks is kept; the selection stays on the same index or moves to the new last column and is then re-clamped (index kept with the scroll offset when the column holds it, else its last task, or 0 and offset 0 when empty); the board is saved |
| ColumnOps.MoveColumnLeft | src/app.rs:264-271 | the selected column swaps with its left neighbour and stays selected; all other columns are unchanged, the columns are a permutation of the old ones, and the board is saved |
| ColumnOps.MoveColumnRight | src/app.rs:273-280 | the selected column swaps with its right neighbour and stays selected; all other columns are unchanged, the columns are a permutation of the old ones, and the board is saved |
| ColumnOps.ColumnMovesAreInverse | src/app.rs:264-280 | moving a column left then right restores the board and selection exactly |
| Submit.InputChar | src/app.rs:305-307 | the character is appended to the buffer and nothing else changes |
| Submit.InputBackspace | src/app.rs:310-312 | the last character is dropped if there is one; an empty buffer is left alone; nothing else changes |
| Submit.BackspaceUndoesChar | src/app.rs:305-312 | backspace after typing a character restores the state |
| Submit.EscEditingTitle | src/main.rs:182-186 | Escape in the title editor returns to the detail view with an empty buffer; nothing else changes, so the focused field and the selection the detail view reads are kept and nothing is written |
| Submit.EscAddingProject | src/main.rs:235-238 | Escape while naming a project returns to the project list with an empty buffer; nothing else changes and nothing is written |
| Submit.Slug | src/app.rs:388 | the column id has the name's length; each character is lower-cased, and a space becomes `_` |
| Submit.SlugIsNormal | src/app.rs:388 | a slug has no spaces and no upper-case ASCII letters, and slugging is idempotent |
| Submit.SubmitTask | src/app.rs:317-331 | a non-empty buffer is appended as a new task to the selected column only; the new task becomes selected and the scroll offset becomes exactly `len - visible` of the grown column (0 when it fits), so the task sits on the window's last row or the whole column is shown; with no viewport the offset is kept; the board is saved; an empty buffer writes nothing; the mode returns to Normal; focus, viewport and highlighted project are kept |
| Submit.SubmitTag | src/app.rs:332-343 | a non-empty buffer is added (deduplicated) to the selected task only and saved; otherwise nothing is written; the mode returns to Normal; apart from the data, the record of writes, mode and buffer nothing changes |
| Submit.SubmitTitle | src/app.rs:344-358 | a non-empty buffer replaces only the selected task's title and is saved; an empty buffer writes nothing; the mode returns to ViewingTask; apart from the data, the record of writes, mode and buffer nothing changes |
| Submit.SubmitDescription | src/app.rs:359-371 | the buffer, even empty, replaces only the selected task's description and is saved; the mode returns to ViewingTask; apart from the data, the record of writes, mode and buffer nothing changes |
| Submit.SubmitProject | src/app.rs:372-383 | a non-empty buffer appends a new project, makes it current and highlighted, and saves; the board selection, scroll offset, viewport and focus are kept; the mode returns to ProjectList |
| Submit.SubmitProjectKeepsStaleColumn | src/app.rs:372-383 | creating a project while column 5 of a five-column board is selected leaves the state invalid; after closing the list the selected column does not exist |
| Submit.SubmitProjectCorrected | src/app.rs:372-383 | the corrected creation also shows the new project from its first column, task 0, scroll 0; viewport and focus are kept; it preserves validity and the selection invariant |
| Submit.SubmitColumn | src/app.rs:384-393 | a non-empty name appends an empty column whose id is the slug of the name, after the unchanged existing columns, and saves; an empty name writes nothing; apart from the data, the record of writes, mode and buffer nothing changes |
| Submit.SubmitRename | src/app.rs:394-403 | a non-empty buffer changes only the selected column's name, keeping its id and tasks, and saves; otherwise nothing is written; apart from the data, the record of writes, mode and buffer nothing changes |
| Submit.SubmitInput | src/app.rs:315-410 | submit dispatches on the mode: AddingTask, AddingTag, EditingTitle, EditingDescription, AddingProject, AddingColumn and RenamingColumn run the matching per-mode submit; in Normal, ViewingTask, ViewingHelp and ProjectList it is exactly `cancel_input`, switching to Normal and clearing the buffer with no other change; it always clears the buffer and lands in Normal, ViewingTask or ProjectList as the mode dictates; every change is written; outside AddingProject it preserves the invariant |
| Submit.SubmitInputCorrected | src/app.rs:315-410 | with corrected project creation (AddingProject runs the corrected creation, every other mode agrees with the written submit), submit preserves the invariant in every mode |
| Submit.RenameUneditedKeepsProjects | src/app.rs:394-403 | starting a rename and submitting the pre-filled name leaves the projects unchanged |
| Submit.TitleUneditedKeepsProjects | src/app.rs:344-358 | opening the title editor and submitting unchanged leaves the projects unchanged and returns to the detail view |
| Submit.DescriptionUneditedKeepsProjects | src/app.rs:359-371 | opening the description editor and submitting unchanged leaves the projects unchanged and returns to the detail view |
| Submit.RemoveTagUndoesAddTag | src/app.rs:452-464 | removing, by its index, a tag that was just added restores the projects |
| ProjectOps.OpenProjectList | src/app.rs:467-470 | the list opens with the current project highlighted; every other field, the buffer and the focused field included, is kept |
| ProjectOps.SelectProject | src/app.rs:472-478 | the highlighted project becomes current and is shown from column 0, task 0, scroll 0 in Normal mode; data, record of writes, viewport, focus and highlight are kept; from a valid state the invariant holds |
| ProjectOps.OpenThenSelectKeepsProject | src/app.rs:467-478 | opening the list and selecting at once keeps the current project |
| ProjectOps.MoveProjectUp | src/app.rs:480-484 | the highlight moves up one unless at the top; only the highlight changes |
| ProjectOps.MoveProjectDown | src/app.rs:486-490 | the highlight moves down one unless at the last project; only the highlight changes |
| ProjectOps.ProjectMovesAreInverse | src/app.rs:480-490 | moving the highlight down and then up restores the state |
| ProjectOps.StartAddingProject | src/app.rs:492-495 | enters AddingProject with an empty buffer; every other field, the focused field included, is kept |
| ProjectOps.DeleteProject | src/app.rs:497-508 | with two or more projects, the highlighted one is removed, both indices are clamped to the shorter list, and the result is saved; a single project is never deleted; the board selection, mode, viewport and focus are kept |
| ProjectOps.DeleteProjectSwitchesProject | src/app.rs:497-508 | deleting a project listed before the current one silently makes a different project current and leaves the state invalid |
| ProjectOps.DeleteProjectCorrected | src/app.rs:497-508 | the corrected deletion keeps the current project (and its selection) when another is deleted; when the current one is deleted, the successor is shown from column 0; mode, viewport and focus are kept; it preserves the invariant |
| ProjectOps.DeleteProjectAgreesAfterCurrent | src/app.rs:497-508 | when the deleted project lies after the current one, the corrected and written deletions coincide |
| Machine.Step | src/main.rs:48-80 | from a state satisfying the invariant, every `App` operation is defined and restores the invariant; any change to the data has been written |
| Machine.Run | src/main.rs:48-80 | over any sequence of operations the invariant holds and the data on disk either was not touched or matches memory |
| Machine.RunConcat | src/main.rs:48-80 | running two sequences in turn equals running their concatenation |
| Machine.RunKeepsDiskCurrent | src/app.rs:77-79 | once the saved collection equals the in-memory one, it does so after any run |
| Machine.StartupSatisfiesInvariant | src/app.rs:45-59 | startup on the corrected load satisfies the invariant whatever the files held |
| Machine.StartupFromEmptyFileHasNoBoard | src/app.rs:62-64 | startup on the written load, with a current file holding `[]`, leaves `board()` indexing an empty list |
| Machine.AddAndAdvanceScenario | src/app.rs:162-186 | on a fresh board, add a task, move it forward, follow it, and move it forward again: it then sits alone in the third column, whose id is "testing", selected, with the change saved |

## Left out

- Files, paths and JSON (`get_config_path`, `get_old_omarchy_config_path`, `get_old_board_path`, `serde`). Each file is represented by its parse outcome. A write is represented by the collection written; its failure is discarded, as the code discards it.
- `should_quit` and the `q` key. Quitting changes no modelled state.
- The drawing code, `Task::get_tag_color` and `project_name`. They only render. The number of visible cards, which drawing reports, is the `Resize` intent.
- The key map in `main.rs`. `Machine.Step` accepts every `App` method in every mode, which is more than the key map allows. `handle_normal_mode` (src/main.rs:84-136) binds no key to `start_adding_column`, `start_renaming_column`, `delete_column` or the column moves, so no key reaches the column-management methods. Separately, the mode match at src/main.rs:62-73 has no arm for `AddingColumn` or `RenamingColumn`. The column methods are modelled as the methods they are.
- The `omarchy-kanban` directory holds the predecessor program. It is not part of this model.
- Submit.Slug: lower-cases ASCII letters only. Rust's `to_lowercase` also maps other Unicode letters, and it can change a string's length.
- Storage.LoadProjects: does not state non-emptiness. As written the cascade can return an empty list (see "## Findings").
- `usize` width. Indices are unbounded; an increment past `usize::MAX` cannot occur with collections that fit in memory.

## Findings

| source | as written | input that shows it | evidently intended | confidence | as-written member | corrected member |
|---|---|---|---|---|---|---|
| src/app.rs:497-508 | `delete_project` removes the highlighted project but only clamps `current_project`. It keeps `selected_column`, `selected_index` and `scroll_offset`. | Projects A, B, C; B current, A highlighted. After the deletion C is current; this switch needs only four-column boards and ordinary keys. If B has a fifth column with it selected, column 4 of C's four-column board is then selected and a later `delete_task` unwraps `None`; since no key adds columns, such a board comes only from a hand-edited current-format file. | The current project stays current when another is deleted. When it is itself deleted, the selection resets as `select_project` does. | not executed | ProjectOps.DeleteProjectSwitchesProject | ProjectOps.DeleteProjectCorrected |
| src/app.rs:372-383 | Creating a project makes it current but keeps the old board's `selected_column`, `selected_index` and `scroll_offset`. | One project with five columns and the fifth selected; add project "Q". The new four-column board is current with column 4 selected; after Escape `delete_task` unwraps `None`. Since no key adds columns, the five-column board comes only from a hand-edited current-format file; with four-column boards, a selected task index other than 0 is already out of range on the new empty board. | Reset the board selection as `select_project` does. | not executed | Submit.SubmitProjectKeepsStaleColumn | Submit.SubmitProjectCorrected |
| src/storage.rs:113-131 | Any collection that parses is returned, including `[]`; a board with no columns is also accepted. | A current `projects.json` holding `[]`. `App::new` keeps the empty list, and the first draw indexes it in `project_name` at src/app.rs:73 (called from src/ui.rs:52); `board()` at src/app.rs:63 does the same. | A collection that is not usable falls through to the next source and finally to the default project. | not executed | Storage.LoadMayReturnNoProjects | Storage.LoadProjectsCorrected |

=== FILE: app_state.dfy ===
/** The interaction state of the application: the loaded projects, index-based selection,
    the current input mode and text buffer, and the last collection handed to `save`. */
module AppState {
  import opened Wrappers
  import opened BoardModel

  datatype InputMode =
    | Normal
    | AddingTask
    | AddingTag
    | ViewingTask
    | EditingTitle
    | EditingDescription
    | ViewingHelp
    | ProjectList
    | AddingProject
    | AddingColumn
    | RenamingColumn

  /** The field focused in the task detail view. */
  datatype TaskField = Title | Tags | Description

  /** `lastSaved` is the collection most recently written by `save`, `None` before the first write. */
  datatype App = App(
    projects: seq<Project>,
    currentProject: nat,
    selectedProjectIndex: nat,
    selectedColumn: nat,
    selectedIndex: nat,
    scrollOffset: nat,
    visibleItems: nat,
    inputMode: InputMode,
    inputBuffer: string,
    focusedField: TaskField,
    lastSaved: Option<seq<Project>>)

  /** The number of visible cards assumed until the first frame is drawn. */
  const InitialVisibleItems: nat := 5

  // ---------------------------------------------------------------- access to the current board

  /** `board()` indexes the project list with `current_project`. */
  predicate HasBoard(a: App) {
    a.currentProject < |a.projects|
  }

  function CurrentBoard(a: App): Board
    requires HasBoard(a)
  {
    a.projects[a.currentProject].board
  }

  function Columns(a: App): seq<BoardColumn>
    requires HasBoard(a)
  {
    CurrentBoard(a).columns
  }

  /** The selected column exists, so `get_column_mut(selected_column).unwrap()` succeeds. */
  predicate HasColumn(a: App) {
    HasBoard(a) && a.selectedColumn < |Columns(a)|
  }

  /** There is a task at the selection. */
  predicate HasSelectedTask(a: App) {
    HasColumn(a) && a.selectedIndex < |Columns(a)[a.selectedColumn].tasks|
  }

  /** The length of the selected column, or 0 when it does not exist (`map_or(0, ...)`). */
  function ColumnLen(a: App): nat
    requires HasBoard(a)
  {
    match GetColumn(CurrentBoard(a), a.selectedColumn)
    case Some(c) => |c.tasks|
    case None => 0
  }

  // ---------------------------------------------------------------- invariants

  /** The state every operation relies on: some project exists, the current and highlighted
      projects exist, every board has a column, and the selected column exists. */
  predicate Valid(a: App) {
    && Usable(a.projects)
    && a.currentProject < |a.projects|
    && a.selectedProjectIndex < |a.projects|
    && a.selectedColumn < |Columns(a)|
  }

  /** The selected task exists, or the selected column is empty and the selection is 0. */
  predicate SelectionInRange(a: App)
    requires HasBoard(a)
  {
    a.selectedIndex < ColumnLen(a) || (ColumnLen(a) == 0 && a.selectedIndex == 0)
  }

  /** What `clamp_selection` leaves in `r`, measured against `r`'s selected column, whatever
      changed since `a`: an empty column shows its top, an index it holds is kept with the
      scroll offset, and an index past its end becomes its last task. */
  predicate Reclamped(a: App, r: App)
    requires HasBoard(r)
  {
    && (ColumnLen(r) == 0 ==> r.selectedIndex == 0 && r.scrollOffset == 0)
    && (a.selectedIndex < ColumnLen(r) ==> r.selectedIndex == a.selectedIndex && r.scrollOffset == a.scrollOffset)
    && (0 < ColumnLen(r) <= a.selectedIndex ==> r.selectedIndex == ColumnLen(r) - 1 && r.scrollOffset == a.scrollOffset)
  }

  predicate Invariant(a: App) {
    Valid(a) && SelectionInRange(a)
  }

  /** From `a` to `r` either neither the data nor the record of writes moved, or the data as
      it now stands is what was last written. */
  predicate WritesTracked(a: App, r: App) {
    (r.projects == a.projects && r.lastSaved == a.lastSaved) || r.lastSaved == Some(r.projects)
  }

  /** Only interaction state (mode, buffer, focus, highlighted project) may differ: the data,
      the board selection and the record of writes are as before. */
  predicate UiOnly(a: App, r: App) {
    && r.projects == a.projects
    && r.lastSaved == a.lastSaved
    && r.currentProject == a.currentProject
    && r.selectedColumn == a.selectedColumn
    && r.selectedIndex == a.selectedIndex
    && r.scrollOffset == a.scrollOffset
    && r.visibleItems == a.visibleItems
  }

  /** Mode, buffer, focus, viewport and highlighted project are as before. */
  predicate SameInput(a: App, r: App) {
    && r.inputMode == a.inputMode
    && r.inputBuffer == a.inputBuffer
    && r.focusedField == a.focusedField
    && r.visibleItems == a.visibleItems
    && r.selectedProjectIndex == a.selectedProjectIndex
  }

  /** Only the current project's board may differ in the project collection. */
  predicate SameProjectsExceptBoard(a: App, r: App)
    requires HasBoard(a)
  {
    && |r.projects| == |a.projects|
    && r.currentProject == a.currentProject
    && r.projects[a.currentProject].name == a.projects[a.currentProject].name
    && forall k :: 0 <= k < |a.projects| && k != a.currentProject ==> r.projects[k] == a.projects[k]
  }

  // ---------------------------------------------------------------- construction and shared steps

  /** The smaller of two indices, as the clamps in `app.rs` compute it. */
  function Min(x: nat, y: nat): nat {
    if x <= y then x else y
  }

  /** `App::new`, given the projects `load_projects` returned. */
  function New(loaded: seq<Project>): (a: App)
    ensures a.projects == loaded && a.lastSaved == None
    ensures a.inputMode == Normal && a.inputBuffer == [] && a.focusedField == Title
    ensures a.currentProject == 0 && a.selectedProjectIndex == 0
    ensures a.selectedColumn == 0 && a.selectedIndex == 0 && a.scrollOffset == 0
    ensures a.visibleItems == InitialVisibleItems
    ensures Valid(a) <==> Usable(loaded)
    ensures Valid(a) ==> Invariant(a)
  {
    App(loaded, 0, 0, 0, 0, 0, InitialVisibleItems, Normal, [], Title, None)
  }

  /** `save`: the whole collection is written; the outcome of the write is discarded. */
  function Save(a: App): (r: App)
    ensures r.lastSaved == Some(a.projects)
    ensures r == a.(lastSaved := r.lastSaved)
  {
    a.(lastSaved := Some(a.projects))
  }

  /** `cancel_input`: back to Normal with an empty buffer; nothing is written. */
  function CancelInput(a: App): (r: App)
    ensures r.inputMode == Normal && r.inputBuffer == []
    ensures UiOnly(a, r) && r.focusedField == a.focusedField
    ensures r.selectedProjectIndex == a.selectedProjectIndex
  {
    a.(inputMode := Normal, inputBuffer := [])
  }

  /** Replaces the current project's board (`board_mut()`), leaving everything else alone. */
  function WithBoard(a: App, b: Board): (r: App)
    requires HasBoard(a)
    ensures HasBoard(r) && CurrentBoard(r) == b
    ensures SameProjectsExceptBoard(a, r) && SameInput(a, r)
    ensures r.selectedColumn == a.selectedColumn && r.selectedIndex == a.selectedIndex
    ensures r.scrollOffset == a.scrollOffset && r.lastSaved == a.lastSaved
    ensures Usable(a.projects) && |b.columns| > 0 ==> Usable(r.projects)
  {
    var p := a.projects[a.currentProject];
    a.(projects := a.projects[a.currentProject := p.(board := b)])
  }

  /** Column `k` of `cs'` may differ from `cs`, every other column is the same. */
  predicate OnlyColumnChanged(cs: seq<BoardColumn>, cs': seq<BoardColumn>, k: nat) {
    && |cs'| == |cs|
    && k < |cs|
    && forall j :: 0 <= j < |cs| && j != k ==> cs'[j] == cs[j]
  }

  /** Only task `i` of column `c` may differ; the column keeps its id, name and length. */
  predicate OnlyTaskChanged(cs: seq<BoardColumn>, cs': seq<BoardColumn>, c: nat, i: nat) {
    && OnlyColumnChanged(cs, cs', c)
    && cs'[c].id == cs[c].id
    && cs'[c].name == cs[c].name
    && |cs'[c].tasks| == |cs[c].tasks|
    && i < |cs[c].tasks|
    && forall j :: 0 <= j < |cs[c].tasks| && j != i ==> cs'[c].tasks[j] == cs[c].tasks[j]
  }

  /** Overwrites the selected task (`column.tasks[selected_index] = ...`). */
  function UpdateTask(a: App, t: Task): (r: App)
    requires HasSelectedTask(a)
    ensures HasSelectedTask(r)
    ensures OnlyTaskChanged(Columns(a), Columns(r), a.selectedColumn, a.selectedIndex)
    ensures Columns(r)[a.selectedColumn].tasks[a.selectedIndex] == t
    ensures SameProjectsExceptBoard(a, r) && SameInput(a, r)
    ensures r.selectedColumn == a.selectedColumn && r.selectedIndex == a.selectedIndex
    ensures r.scrollOffset == a.scrollOffset && r.lastSaved == a.lastSaved
    ensures Valid(a) ==> Valid(r)
    ensures Invariant(a) ==> Invariant(r)
  {
    var c := a.selectedColumn;
    var col := Columns(a)[c];
    WithBoard(a, PutColumn(CurrentBoard(a), c, col.(tasks := col.tasks[a.selectedIndex := t])))
  }
}

=== FILE: board.dfy ===
/** The kanban data model: tasks, columns, boards and projects, with their constructors. */
module BoardModel {
  import opened Wrappers
  import opened Seqs

  /** A unit of work; `tags` behaves as an insertion-ordered set. */
  datatype Task = Task(title: string, tags: seq<string>, description: string)

  /** A column: `id` is stable, `name` is the editable label, index 0 of `tasks` is the top card. */
  datatype BoardColumn = BoardColumn(id: string, name: string, tasks: seq<Task>)

  datatype Board = Board(columns: seq<BoardColumn>)

  datatype Project = Project(name: string, board: Board)

  /** The canonical column identifiers and labels, in board order. */
  const DefaultIds: seq<string> := ["todo", "in_progress", "testing", "done"]
  const DefaultNames: seq<string> := ["To Do", "In Progress", "Testing", "Done"]

  /** The board has exactly the four canonical columns, in canonical order. */
  predicate HasDefaultLayout(b: Board) {
    && |b.columns| == |DefaultIds|
    && forall k :: 0 <= k < |b.columns| ==>
         b.columns[k].id == DefaultIds[k] && b.columns[k].name == DefaultNames[k]
  }

  /** Every project owns a board with at least one column, and there is at least one project. */
  predicate Usable(ps: seq<Project>) {
    && |ps| > 0
    && forall k :: 0 <= k < |ps| ==> |ps[k].board.columns| > 0
  }

  // ---------------------------------------------------------------- Task

  function NewTask(title: string): (t: Task)
    ensures t.title == title
    ensures t.tags == [] && t.description == []
    ensures NoDuplicates(t.tags)
  {
    Task(title, [], "")
  }

  /** `Vec::contains`: a linear scan for `tag`. */
  function Contains(tags: seq<string>, tag: string): (r: bool)
    ensures r <==> tag in tags
  {
    if |tags| == 0 then false
    else tags[0] == tag || Contains(tags[1..], tag)
  }

  /** Appends `tag` unless it is already present. */
  function AddTag(t: Task, tag: string): (r: Task)
    ensures tag in r.tags
    ensures tag in t.tags ==> r == t
    ensures tag !in t.tags ==> r.tags == t.tags + [tag]
    ensures r.title == t.title && r.description == t.description
    ensures forall x :: x in r.tags <==> x in t.tags || x == tag
    ensures NoDuplicates(t.tags) ==> NoDuplicates(r.tags)
  {
    if Contains(t.tags, tag) then t else t.(tags := t.tags + [tag])
  }

  /** Adding a tag a second time changes nothing. */
  lemma AddTagIdempotent(t: Task, tag: string)
    ensures AddTag(AddTag(t, tag), tag) == AddTag(t, tag)
  {
  }

  /** The tags of `t` after adding each of `xs` in turn. */
  function AddTags(t: Task, xs: seq<string>): Task
    decreases |xs|
  {
    if |xs| == 0 then t else AddTags(AddTag(t, xs[0]), xs[1..])
  }

  /** Repeated `add_tag` behaves as an insertion-ordered set union: earlier tags keep their
      positions, every tag appears once, and exactly the old and the added tags are present. */
  lemma {:induction false} AddTagsIsOrderedUnion(t: Task, xs: seq<string>)
    requires NoDuplicates(t.tags)
    ensures var r := AddTags(t, xs);
      && NoDuplicates(r.tags)
      && |t.tags| <= |r.tags|
      && r.tags[..|t.tags|] == t.tags
      && (forall x :: x in r.tags <==> x in t.tags || x in xs)
      && r.title == t.title && r.description == t.description
    decreases |xs|
  {
    if |xs| > 0 {
      var t1 := AddTag(t, xs[0]);
      AddTagsIsOrderedUnion(t1, xs[1..]);
      var r := AddTags(t1, xs[1..]);
      assert AddTags(t, xs) == r;
      assert r.tags[..|t1.tags|] == t1.tags;
      assert t1.tags[..|t.tags|] == t.tags;
      assert r.tags[..|t.tags|] == t.tags by {
        assert r.tags[..|t.tags|] == r.tags[..|t1.tags|][..|t.tags|];
      }
      assert xs == [xs[0]] + xs[1..];
    }
  }

  // ---------------------------------------------------------------- Column and Board

  function NewColumn(id: string, name: string): (c: BoardColumn)
    ensures c.id == id && c.name == name
    ensures c.tasks == []
  {
    BoardColumn(id, name, [])
  }

  function NewBoard(): (b: Board)
    ensures HasDefaultLayout(b)
    ensures forall k :: 0 <= k < |b.columns| ==> b.columns[k].tasks == []
    ensures forall i, j :: 0 <= i < j < |b.columns| ==> b.columns[i].id != b.columns[j].id
  {
    Board([
      NewColumn("todo", "To Do"),
      NewColumn("in_progress", "In Progress"),
      NewColumn("testing", "Testing"),
      NewColumn("done", "Done")
    ])
  }

  /** Bounds-checked read: absent, never a crash, when `i` is out of range. */
  function GetColumn(b: Board, i: nat): (r: Option<BoardColumn>)
    ensures r.Some? <==> i < |b.columns|
    ensures r.Some? ==> r.value == b.columns[i]
  {
    if i < |b.columns| then Some(b.columns[i]) else None
  }

  /** A write through `get_column_mut(i)`: column `i` is replaced, the rest are untouched. */
  function PutColumn(b: Board, i: nat, c: BoardColumn): (r: Board)
    requires i < |b.columns|
    ensures |r.columns| == |b.columns|
    ensures GetColumn(r, i) == Some(c)
    ensures forall j :: 0 <= j < |b.columns| && j != i ==> GetColumn(r, j) == GetColumn(b, j)
  {
    b.(columns := b.columns[i := c])
  }

  /** All tasks on a sequence of columns, as a multiset. */
  function ColumnTasks(cs: seq<BoardColumn>): multiset<Task> {
    if |cs| == 0 then multiset{} else multiset(cs[0].tasks) + ColumnTasks(cs[1..])
  }

  lemma {:induction false} ColumnTasksConcat(x: seq<BoardColumn>, y: seq<BoardColumn>)
    ensures ColumnTasks(x + y) == ColumnTasks(x) + ColumnTasks(y)
    decreases |x|
  {
    if |x| > 0 {
      assert (x + y)[1..] == x[1..] + y;
      ColumnTasksConcat(x[1..], y);
    } else {
      assert x + y == y;
    }
  }

  /** The tasks of a column sequence are those before `k`, those of column `k`, and those after. */
  lemma {:induction false} ColumnTasksSplit(cs: seq<BoardColumn>, k: nat)
    requires k < |cs|
    ensures ColumnTasks(cs) == ColumnTasks(cs[..k]) + multiset(cs[k].tasks) + ColumnTasks(cs[k + 1..])
  {
    var pre, mid, post := cs[..k], [cs[k]], cs[k + 1..];
    assert cs == pre + mid + post;
    ColumnTasksConcat(pre + mid, post);
    ColumnTasksConcat(pre, mid);
    assert ColumnTasks(mid) == multiset(cs[k].tasks) by { assert mid[1..] == []; }
  }

  /** Replacing column `k` by one holding `extra` more tasks adds exactly `extra`. */
  lemma {:induction false} ColumnTasksGrow(cs: seq<BoardColumn>, k: nat, c: BoardColumn, extra: multiset<Task>)
    requires k < |cs|
    requires multiset(c.tasks) == multiset(cs[k].tasks) + extra
    ensures ColumnTasks(cs[k := c]) == ColumnTasks(cs) + extra
  {
    var cs' := cs[k := c];
    assert cs'[..k] == cs[..k] && cs'[k + 1..] == cs[k + 1..];
    ColumnTasksSplit(cs, k);
    ColumnTasksSplit(cs', k);
  }

  /** Removing column `k` removes exactly that column's tasks from the multiset. */
  lemma {:induction false} ColumnTasksRemove(cs: seq<BoardColumn>, k: nat)
    requires k < |cs|
    ensures ColumnTasks(RemoveAt(cs, k)) + multiset(cs[k].tasks) == ColumnTasks(cs)
  {
    assert RemoveAt(cs, k) == cs[..k] + cs[k + 1..];
    ColumnTasksConcat(cs[..k], cs[k + 1..]);
    ColumnTasksSplit(cs, k);
  }

  // ---------------------------------------------------------------- Project

  function NewProject(name: string): (p: Project)
    ensures p.name == name
    ensures HasDefaultLayout(p.board)
    ensures forall k :: 0 <= k < |p.board.columns| ==> p.board.columns[k].tasks == []
  {
    Project(name, NewBoard())
  }
}

=== FILE: column_ops.dfy ===
/** Column management on the current board: entering the add and rename modes, deleting an
    empty column, and reordering columns. */
module ColumnOps {
  import opened Wrappers
  import opened Seqs
  import opened BoardModel
  import opened AppState
  import opened Navigation

  /** `start_adding_column`. */
  function StartAddingColumn(a: App): (r: App)
    ensures r.inputMode == AddingColumn && r.inputBuffer == []
    ensures r == a.(inputMode := r.inputMode, inputBuffer := r.inputBuffer)
    ensures UiOnly(a, r) && r.selectedProjectIndex == a.selectedProjectIndex
  {
    a.(inputMode := AddingColumn, inputBuffer := [])
  }

  /** `start_renaming_column`: the buffer is pre-filled with the selected column's name. */
  function StartRenamingColumn(a: App): (r: App)
    requires HasBoard(a)
    ensures !HasColumn(a) ==> r == a
    ensures HasColumn(a) ==>
      r.inputMode == RenamingColumn && r.inputBuffer == Columns(a)[a.selectedColumn].name
    ensures r == a.(inputMode := r.inputMode, inputBuffer := r.inputBuffer)
    ensures UiOnly(a, r) && r.selectedProjectIndex == a.selectedProjectIndex
  {
    match GetColumn(CurrentBoard(a), a.selectedColumn)
    case Some(c) => a.(inputBuffer := c.name, inputMode := RenamingColumn)
    case None => a
  }

  /** `delete_column`: only an empty column, and never the last one. */
  function DeleteColumn(a: App): (r: App)
    requires HasBoard(a)
    ensures (|| |Columns(a)| <= 1
             || a.selectedColumn >= |Columns(a)|
             || |Columns(a)[a.selectedColumn].tasks| > 0) ==> r == a
    ensures |Columns(a)| > 1 && a.selectedColumn < |Columns(a)| && Columns(a)[a.selectedColumn].tasks == [] ==>
      && HasColumn(r)
      && Columns(r) == RemoveAt(Columns(a), a.selectedColumn)
      && ColumnTasks(Columns(r)) == ColumnTasks(Columns(a))
      && (a.selectedColumn < |Columns(r)| ==> r.selectedColumn == a.selectedColumn)
      && (a.selectedColumn == |Columns(r)| ==> r.selectedColumn == a.selectedColumn - 1)
      && SelectionInRange(r) && Reclamped(a, r)
      && SameProjectsExceptBoard(a, r) && SameInput(a, r)
      && r.lastSaved == Some(r.projects)
    ensures Valid(a) ==> Valid(r)
    ensures Invariant(a) ==> Invariant(r)
  {
    var cs := Columns(a);
    if |cs| <= 1 then a
    else
      match GetColumn(CurrentBoard(a), a.selectedColumn)
      case Some(col) =>
        if col.tasks == [] then
          var cs' := RemoveAt(cs, a.selectedColumn);
          var sel := if a.selectedColumn >= |cs'| then (if |cs'| > 0 then |cs'| - 1 else 0) else a.selectedColumn;
          ColumnTasksRemove(cs, a.selectedColumn);
          Save(ClampSelection(WithBoard(a, Board(cs')).(selectedColumn := sel)))
        else a
      case None => a
  }

  /** `move_column_left`: the selected column swaps with its left neighbour and stays selected. */
  function MoveColumnLeft(a: App): (r: App)
    requires a.selectedColumn > 0 ==> HasColumn(a)
    ensures a.selectedColumn == 0 ==> r == a
    ensures a.selectedColumn > 0 ==>
      && HasColumn(r)
      && r.selectedColumn == a.selectedColumn - 1
      && |Columns(r)| == |Columns(a)|
      && Columns(r)[r.selectedColumn] == Columns(a)[a.selectedColumn]
      && Columns(r)[a.selectedColumn] == Columns(a)[r.selectedColumn]
      && (forall k :: 0 <= k < |Columns(a)| && k != a.selectedColumn && k != r.selectedColumn ==>
            Columns(r)[k] == Columns(a)[k])
      && multiset(Columns(r)) == multiset(Columns(a))
      && r.selectedIndex == a.selectedIndex && r.scrollOffset == a.scrollOffset
      && SameProjectsExceptBoard(a, r) && SameInput(a, r)
      && r.lastSaved == Some(r.projects)
    ensures Valid(a) ==> Valid(r)
    ensures Invariant(a) ==> Invariant(r)
  {
    if a.selectedColumn > 0 then
      var c := a.selectedColumn;
      Save(WithBoard(a, Board(Swap(Columns(a), c, c - 1))).(selectedColumn := c - 1))
    else a
  }

  /** `move_column_right`: the selected column swaps with its right neighbour and stays
      selected; `columns.len() - 1` needs a column to exist. */
  function MoveColumnRight(a: App): (r: App)
    requires HasBoard(a) && |Columns(a)| > 0
    ensures a.selectedColumn >= |Columns(a)| - 1 ==> r == a
    ensures a.selectedColumn < |Columns(a)| - 1 ==>
      && HasColumn(r)
      && r.selectedColumn == a.selectedColumn + 1
      && |Columns(r)| == |Columns(a)|
      && Columns(r)[r.selectedColumn] == Columns(a)[a.selectedColumn]
      && Columns(r)[a.selectedColumn] == Columns(a)[r.selectedColumn]
      && (forall k :: 0 <= k < |Columns(a)| && k != a.selectedColumn && k != r.selectedColumn ==>
            Columns(r)[k] == Columns(a)[k])
      && multiset(Columns(r)) == multiset(Columns(a))
      && r.selectedIndex == a.selectedIndex && r.scrollOffset == a.scrollOffset
      && SameProjectsExceptBoard(a, r) && SameInput(a, r)
      && r.lastSaved == Some(r.projects)
    ensures Valid(a) ==> Valid(r)
    ensures Invariant(a) ==> Invariant(r)
  {
    if a.selectedColumn < |Columns(a)| - 1 then
      var c := a.selectedColumn;
      Save(WithBoard(a, Board(Swap(Columns(a), c, c + 1))).(selectedColumn := c + 1))
    else a
  }

  /** Moving a column left and then right restores the board and the selection; only the
      record of writes differs. */
  lemma ColumnMovesAreInverse(a: App)
    requires HasColumn(a) && a.selectedColumn > 0
    ensures var b := MoveColumnRight(MoveColumnLeft(a));
      && b.projects == a.projects
      && b == a.(lastSaved := Some(a.projects))
  {
    var l := MoveColumnLeft(a);
    var b := MoveColumnRight(l);
    assert Columns(b) == Columns(a);
    assert b.projects[a.currentProject] == a.projects[a.currentProject];
    assert b.projects == a.projects;
  }
}

=== FILE: machine.dfy ===
/** The application as a state machine: every `App` operation as an intent, the step function
    that applies it (with the corrected project creation, project deletion and load), and the
    invariant every run keeps from startup on. */
module Machine {
  import opened Wrappers
  import opened Seqs
  import opened BoardModel
  import opened Storage
  import opened AppState
  import opened Navigation
  import opened TaskOps
  import opened ColumnOps
  import opened Submit
  import opened ProjectOps

  /** One call into `App`. The four moves are followed by `update_scroll`, as every key binding
      for them does; `Resize` is the drawing code reporting how many cards fit. */
  datatype Intent =
    | Up | Down | Left | Right
    | Open | BeginTask | BeginTag | TaskForward | TaskBackward | TaskDelete | Help
    | Type(ch: char) | Backspace | Submit | Cancel
    | FocusNext | Activate | Digit(d: char) | Close | EscTitle | EscProject
    | ProjectsOpen | ProjectUp | ProjectDown | ProjectSelect | ProjectBegin | ProjectDelete
    | ColumnBegin | ColumnRename | ColumnDelete | ColumnLeft | ColumnRight
    | Resize(visible: nat)

  /** Applies one intent. From a state satisfying the invariant, every operation is defined (no
      index, `unwrap` or `len() - 1` fails), the invariant holds again, and any change to the data
      has been written. */
  function Step(a: App, i: Intent): (r: App)
    requires Invariant(a)
    ensures Invariant(r)
    ensures WritesTracked(a, r)
  {
    match i
    case Up | Down | Left | Right | Open | BeginTask | BeginTag | TaskForward | TaskBackward
       | TaskDelete | Help | Resize(_) => BoardStep(a, i)
    case Type(_) | Backspace | Submit | Cancel | FocusNext | Activate | Digit(_) | Close
       | EscTitle | EscProject => InputStep(a, i)
    case ProjectsOpen | ProjectUp | ProjectDown | ProjectSelect | ProjectBegin
       | ProjectDelete => ProjectStep(a, i)
    case ColumnBegin | ColumnRename | ColumnDelete | ColumnLeft | ColumnRight => ColumnStep(a, i)
  }

  /** The intents of the board view: selection, task moves, help, and the viewport. */
  function BoardStep(a: App, i: Intent): (r: App)
    requires Invariant(a)
    ensures Invariant(r)
    ensures WritesTracked(a, r)
  {
    match i
    case Up => UpdateScroll(MoveUp(a))
    case Down => UpdateScroll(MoveDown(a))
    case Left => UpdateScroll(MoveLeft(a))
    case Right => UpdateScroll(MoveRight(a))
    case Open => OpenTask(a)
    case BeginTask => StartAddingTask(a)
    case BeginTag => StartAddingTag(a)
    case TaskForward => MoveTaskForward(a)
    case TaskBackward => MoveTaskBackward(a)
    case TaskDelete => DeleteTask(a)
    case Help => ShowHelp(a)
    case Resize(n) => a.(visibleItems := n)
    case _ => a
  }

  /** The intents of the text editors and the detail view. */
  function InputStep(a: App, i: Intent): (r: App)
    requires Invariant(a)
    ensures Invariant(r)
    ensures WritesTracked(a, r)
  {
    match i
    case Type(ch) => InputChar(a, ch)
    case Backspace => InputBackspace(a)
    case Submit => SubmitInputCorrected(a)
    case Cancel => CancelInput(a)
    case FocusNext => NextField(a)
    case Activate => ActivateField(a)
    case Digit(d) => TagKey(a, d)
    case Close => CloseView(a)
    case EscTitle => EscEditingTitle(a)
    case EscProject => EscAddingProject(a)
    case _ => a
  }

  /** The intents of the project list. */
  function ProjectStep(a: App, i: Intent): (r: App)
    requires Invariant(a)
    ensures Invariant(r)
    ensures WritesTracked(a, r)
  {
    match i
    case ProjectsOpen => OpenProjectList(a)
    case ProjectUp => MoveProjectUp(a)
    case ProjectDown => MoveProjectDown(a)
    case ProjectSelect => SelectProject(a)
    case ProjectBegin => StartAddingProject(a)
    case ProjectDelete => DeleteProjectCorrected(a)
    case _ => a
  }

  /** The intents of column management. */
  function ColumnStep(a: App, i: Intent): (r: App)
    requires Invariant(a)
    ensures Invariant(r)
    ensures WritesTracked(a, r)
  {
    match i
    case ColumnBegin => StartAddingColumn(a)
    case ColumnRename => StartRenamingColumn(a)
    case ColumnDelete => DeleteColumn(a)
    case ColumnLeft => MoveColumnLeft(a)
    case ColumnRight => MoveColumnRight(a)
    case _ => a
  }

  /** Applies a sequence of intents in order; the invariant and the tracking of writes carry
      over the whole run. */
  function Run(a: App, intents: seq<Intent>): (r: App)
    requires Invariant(a)
    ensures Invariant(r)
    ensures WritesTracked(a, r)
    decreases |intents|
  {
    if |intents| == 0 then a else Run(Step(a, intents[0]), intents[1..])
  }

  /** Running two sequences one after the other is running their concatenation. */
  lemma {:induction false} RunConcat(a: App, xs: seq<Intent>, ys: seq<Intent>)
    requires Invariant(a)
    ensures Run(a, xs + ys) == Run(Run(a, xs), ys)
    decreases |xs|
  {
    if |xs| == 0 {
      assert xs + ys == ys;
    } else {
      assert (xs + ys)[0] == xs[0];
      assert (xs + ys)[1..] == xs[1..] + ys;
      RunConcat(Step(a, xs[0]), xs[1..], ys);
    }
  }

  /** Once the data on disk matches the data in memory, it keeps matching after any run. */
  lemma RunKeepsDiskCurrent(a: App, intents: seq<Intent>)
    requires Invariant(a) && a.lastSaved == Some(a.projects)
    ensures Run(a, intents).lastSaved == Some(Run(a, intents).projects)
  {
  }

  /** Startup with the corrected load always reaches a state satisfying the invariant, whatever
      the three files held. */
  lemma StartupSatisfiesInvariant(current: Option<seq<Project>>, intermediate: Option<seq<LegacyProject>>,
                                  oldest: Option<LegacyBoard>)
    ensures Invariant(New(LoadProjectsCorrected(current, intermediate, oldest).projects))
  {
  }

  /** Startup with the load as written, on a current file holding `[]`, reaches a state in which
      `board()` indexes an empty list. */
  lemma StartupFromEmptyFileHasNoBoard()
    ensures !HasBoard(New(LoadProjects(Some([]), None, None).projects))
  {
  }

  /** `m` dispatches to `move_task_forward`. */
  lemma StepForward(s: App)
    requires Invariant(s)
    ensures Step(s, TaskForward) == MoveTaskForward(s)
  {
    assert Step(s, TaskForward) == BoardStep(s, TaskForward);
  }

  /** `l` dispatches to `move_right` followed by `update_scroll`. */
  lemma StepRight(s: App)
    requires Invariant(s)
    ensures Step(s, Right) == UpdateScroll(MoveRight(s))
  {
    assert Step(s, Right) == BoardStep(s, Right);
  }

  /** `a` dispatches to `start_adding_task`. */
  lemma StepBeginTask(s: App)
    requires Invariant(s)
    ensures Step(s, BeginTask) == StartAddingTask(s)
  {
    assert Step(s, BeginTask) == BoardStep(s, BeginTask);
  }

  /** A character key in an editor dispatches to `input_char`. */
  lemma StepType(s: App, ch: char)
    requires Invariant(s)
    ensures Step(s, Type(ch)) == InputChar(s, ch)
  {
    assert Step(s, Type(ch)) == InputStep(s, Type(ch));
  }

  /** Enter in an editor dispatches to `submit_input`. */
  lemma StepSubmit(s: App)
    requires Invariant(s)
    ensures Step(s, Submit) == SubmitInputCorrected(s)
  {
    assert Step(s, Submit) == InputStep(s, Submit);
  }

  /** Moving the only task of the selected column into an empty next column. */
  lemma ForwardSingleTask(s: App, t: Task)
    requires Invariant(s) && s.selectedIndex == 0
    requires Columns(s)[s.selectedColumn].tasks == [t]
    requires s.selectedColumn + 1 < |Columns(s)| && Columns(s)[s.selectedColumn + 1].tasks == []
    ensures var r := Step(s, TaskForward);
      && HasBoard(r) && |Columns(r)| == |Columns(s)| && r.selectedColumn == s.selectedColumn
      && Columns(r)[s.selectedColumn] == Columns(s)[s.selectedColumn].(tasks := [])
      && Columns(r)[s.selectedColumn + 1] == Columns(s)[s.selectedColumn + 1].(tasks := [t])
      && (forall k :: 0 <= k < |Columns(s)| && k != s.selectedColumn && k != s.selectedColumn + 1 ==>
            Columns(r)[k] == Columns(s)[k])
      && r.lastSaved == Some(r.projects)
  {
    StepForward(s);
    assert RemoveAt([t], 0) == [];
  }

  /** Moving the selection one column to the right touches no data. */
  lemma RightKeepsData(s: App)
    requires Invariant(s) && s.selectedColumn + 1 < |Columns(s)|
    ensures var r := Step(s, Right);
      && r.projects == s.projects && r.lastSaved == s.lastSaved
      && r.currentProject == s.currentProject && r.selectedColumn == s.selectedColumn + 1
  {
    StepRight(s);
  }

  /** A nonempty run is its first step followed by the rest. */
  lemma RunCons(s: App, intents: seq<Intent>)
    requires Invariant(s) && |intents| > 0
    ensures Run(s, intents) == Run(Step(s, intents[0]), intents[1..])
  {
  }

  /** A run of three intents is three steps. */
  lemma RunThree(s: App, x: Intent, y: Intent, z: Intent)
    requires Invariant(s)
    ensures Run(s, [x, y, z]) == Step(Step(Step(s, x), y), z)
  {
    var s1 := Step(s, x);
    var s2 := Step(s1, y);
    RunCons(s, [x, y, z]);
    assert [x, y, z][1..] == [y, z];
    RunCons(s1, [y, z]);
    assert [y, z][1..] == [z];
    RunCons(s2, [z]);
    assert [z][1..] == [];
  }

  /** Beginning a task and typing one character fills the buffer and touches nothing else. */
  lemma BeginAndType(s: App, ch: char)
    requires Invariant(s)
    ensures var s2 := Step(Step(s, BeginTask), Type(ch));
      s2 == s.(inputMode := AddingTask, inputBuffer := [ch])
  {
    StepBeginTask(s);
    StepType(StartAddingTask(s), ch);
  }

  /** Submitting a one-character title into an empty selected column makes it that column's only
      task, selected. */
  lemma SubmitIntoEmptyColumn(s: App, ch: char)
    requires Invariant(s) && s.inputMode == AddingTask && s.inputBuffer == [ch]
    requires Columns(s)[s.selectedColumn].tasks == []
    ensures var r := Step(s, Submit);
      && Invariant(r)
      && r.selectedColumn == s.selectedColumn && r.selectedIndex == 0
      && OnlyColumnChanged(Columns(s), Columns(r), s.selectedColumn)
      && Columns(r)[s.selectedColumn] == Columns(s)[s.selectedColumn].(tasks := [NewTask([ch])])
      && r.lastSaved == Some(r.projects)
  {
    StepSubmit(s);
    assert SubmitInputCorrected(s) == SubmitInput(s) == SubmitTask(s);
    assert Columns(SubmitTask(s))[s.selectedColumn].tasks == [] + [NewTask([ch])];
  }

  /** Typing a one-character title into an empty selected column and submitting it makes it
      that column's only task, selected. */
  lemma AddIntoEmptyColumn(s: App, ch: char)
    requires Invariant(s) && s.inputMode == Normal && Columns(s)[s.selectedColumn].tasks == []
    ensures var r := Run(s, AddTaskIntents(ch));
      && Invariant(r)
      && r.selectedColumn == s.selectedColumn && r.selectedIndex == 0
      && OnlyColumnChanged(Columns(s), Columns(r), s.selectedColumn)
      && Columns(r)[s.selectedColumn] == Columns(s)[s.selectedColumn].(tasks := [NewTask([ch])])
      && r.lastSaved == Some(r.projects)
  {
    BeginAndType(s, ch);
    RunThree(s, BeginTask, Type(ch), Submit);
    var s2 := s.(inputMode := AddingTask, inputBuffer := [ch]);
    assert Columns(s2) == Columns(s);
    SubmitIntoEmptyColumn(s2, ch);
  }

  /** Moving the only task of the selected column forward and following it with the selection. */
  lemma ForwardAndFollow(s: App, t: Task)
    requires Invariant(s) && s.selectedIndex == 0
    requires Columns(s)[s.selectedColumn].tasks == [t]
    requires s.selectedColumn + 1 < |Columns(s)| && Columns(s)[s.selectedColumn + 1].tasks == []
    ensures var r := Step(Step(s, TaskForward), Right);
      && HasBoard(r) && |Columns(r)| == |Columns(s)|
      && r.selectedColumn == s.selectedColumn + 1 && r.selectedIndex == 0
      && Columns(r)[s.selectedColumn] == Columns(s)[s.selectedColumn].(tasks := [])
      && Columns(r)[s.selectedColumn + 1] == Columns(s)[s.selectedColumn + 1].(tasks := [t])
      && (forall k :: 0 <= k < |Columns(s)| && k != s.selectedColumn && k != s.selectedColumn + 1 ==>
            Columns(r)[k] == Columns(s)[k])
      && r.lastSaved == Some(r.projects)
  {
    ForwardSingleTask(s, t);
    var s1 := Step(s, TaskForward);
    RightKeepsData(s1);
    var r := Step(s1, Right);
    assert Columns(r) == Columns(s1);
    assert ColumnLen(r) == 1;
  }

  /** Moving a lone task forward and following it, twice, takes it from the first column to the
      third. */
  lemma AdvanceTwice(s: App, t: Task)
    requires Invariant(s) && s.selectedColumn == 0 && s.selectedIndex == 0 && |Columns(s)| >= 3
    requires Columns(s)[0].tasks == [t] && Columns(s)[1].tasks == [] && Columns(s)[2].tasks == []
    ensures var r := Run(s, AdvanceIntents());
      && HasBoard(r) && |Columns(r)| == |Columns(s)|
      && Columns(r)[0] == Columns(s)[0].(tasks := []) && Columns(r)[1] == Columns(s)[1].(tasks := [])
      && Columns(r)[2] == Columns(s)[2].(tasks := [t])
      && (forall k :: 3 <= k < |Columns(s)| ==> Columns(r)[k] == Columns(s)[k])
      && r.selectedColumn == 2 && HasSelectedTask(r)
      && r.lastSaved == Some(r.projects)
  {
    ForwardAndFollow(s, t);
    var s2 := Step(Step(s, TaskForward), Right);
    ForwardAndFollow(s2, t);
    var intents := [TaskForward, Right, TaskForward, Right];
    RunCons(s, intents);
    assert intents[1..] == [Right, TaskForward, Right];
    RunThree(Step(s, TaskForward), Right, TaskForward, Right);
  }


  /** The state at startup with one default project. */
  lemma FreshBoard(a: App)
    requires a == New([NewProject("Default")])
    ensures Invariant(a) && a.inputMode == Normal && a.selectedColumn == 0 && a.selectedIndex == 0
    ensures |Columns(a)| == 4
    ensures forall k :: 0 <= k < 4 ==> Columns(a)[k].tasks == []
    ensures Columns(a)[2].id == "testing"
  {
  }

  /** Begin a task, type its one-character title, submit it. */
  function AddTaskIntents(ch: char): seq<Intent> {
    [BeginTask, Type(ch), Submit]
  }

  /** Move the task forward, follow it, move it forward again, follow it again. */
  function AdvanceIntents(): seq<Intent> {
    [TaskForward, Right, TaskForward, Right]
  }

  /** From an empty first column with empty second and third columns, adding a task and moving it
      forward twice, following it each time, leaves it alone in the third column, selected. */
  lemma AddAndAdvance(s: App, ch: char)
    requires Invariant(s) && s.inputMode == Normal && s.selectedColumn == 0 && |Columns(s)| >= 3
    requires Columns(s)[0].tasks == [] && Columns(s)[1].tasks == [] && Columns(s)[2].tasks == []
    ensures var r := Run(s, AddTaskIntents(ch) + AdvanceIntents());
      && HasBoard(r) && |Columns(r)| == |Columns(s)|
      && Columns(r)[0] == Columns(s)[0].(tasks := []) && Columns(r)[1] == Columns(s)[1].(tasks := [])
      && Columns(r)[2] == Columns(s)[2].(tasks := [NewTask([ch])])
      && (forall k :: 3 <= k < |Columns(s)| ==> Columns(r)[k] == Columns(s)[k])
      && r.selectedColumn == 2 && HasSelectedTask(r)
      && r.lastSaved == Some(r.projects)
  {
    AddIntoEmptyColumn(s, ch);
    var m := Run(s, AddTaskIntents(ch));
    assert Columns(m)[1] == Columns(s)[1] && Columns(m)[2] == Columns(s)[2];
    AdvanceTwice(m, NewTask([ch]));
    RunConcat(s, AddTaskIntents(ch), AdvanceIntents());
  }

  /** On a fresh board, typing a task and submitting it, then moving it forward, following it to
      the right, moving it forward again and following it again leaves it alone in the third
      column ("testing"), selected, with the last change written. */
  lemma AddAndAdvanceScenario()
    ensures var r := Run(New([NewProject("Default")]), AddTaskIntents('T') + AdvanceIntents());
      && HasBoard(r) && |Columns(r)| == 4 && Columns(r)[2].id == "testing"
      && Columns(r)[0].tasks == [] && Columns(r)[1].tasks == []
      && Columns(r)[2].tasks == [NewTask("T")] && Columns(r)[3].tasks == []
      && r.selectedColumn == 2 && HasSelectedTask(r)
      && r.lastSaved == Some(r.projects)
  {
    var a := New([NewProject("Default")]);
    FreshBoard(a);
    AddAndAdvance(a, 'T');
  }
}

=== FILE: navigation.dfy ===
/** Moving the selection within and across columns, and keeping the selection visible. */
module Navigation {
  import opened BoardModel
  import opened AppState

  /** `move_up`. */
  function MoveUp(a: App): (r: App)
    ensures r == a.(selectedIndex := r.selectedIndex)
    ensures a.selectedIndex == 0 ==> r == a
    ensures a.selectedIndex > 0 ==> r.selectedIndex == a.selectedIndex - 1
    ensures Valid(a) ==> Valid(r)
    ensures Invariant(a) ==> Invariant(r)
  {
    if a.selectedIndex > 0 then a.(selectedIndex := a.selectedIndex - 1) else a
  }

  /** `move_down`: never beyond the last task of the selected column. */
  function MoveDown(a: App): (r: App)
    requires HasBoard(a)
    ensures r == a.(selectedIndex := r.selectedIndex)
    ensures ColumnLen(a) == 0 || a.selectedIndex >= ColumnLen(a) - 1 ==> r == a
    ensures 0 < ColumnLen(a) && a.selectedIndex < ColumnLen(a) - 1 ==> r.selectedIndex == a.selectedIndex + 1
    ensures a.selectedIndex < ColumnLen(a) ==> r.selectedIndex < ColumnLen(a)
    ensures Valid(a) ==> Valid(r)
    ensures Invariant(a) ==> Invariant(r)
  {
    var n := ColumnLen(a);
    if n > 0 && a.selectedIndex < n - 1 then a.(selectedIndex := a.selectedIndex + 1) else a
  }

  /** `clamp_selection`: pull the task index back into the selected column; on an empty column
      the index and the scroll offset both return to 0. */
  function ClampSelection(a: App): (r: App)
    requires HasBoard(a)
    ensures r == a.(selectedIndex := r.selectedIndex, scrollOffset := r.scrollOffset)
    ensures HasBoard(r) && ColumnLen(r) == ColumnLen(a)
    ensures SelectionInRange(r) && Reclamped(a, r)
    ensures a.selectedIndex < ColumnLen(a) ==> r == a
    ensures ColumnLen(a) == 0 ==> r.scrollOffset == 0
    ensures 0 < ColumnLen(a) <= a.selectedIndex ==>
      r.selectedIndex == ColumnLen(a) - 1 && r.scrollOffset == a.scrollOffset
    ensures Valid(a) ==> Valid(r)
  {
    var n := ColumnLen(a);
    if n == 0 then a.(selectedIndex := 0, scrollOffset := 0)
    else if a.selectedIndex >= n then a.(selectedIndex := n - 1)
    else a
  }

  /** `move_left`. */
  function MoveLeft(a: App): (r: App)
    requires a.selectedColumn > 0 ==> HasBoard(a)
    ensures a.selectedColumn == 0 ==> r == a
    ensures a.selectedColumn > 0 ==>
      && r == a.(selectedColumn := a.selectedColumn - 1, selectedIndex := r.selectedIndex,
                 scrollOffset := r.scrollOffset)
      && HasBoard(r) && SelectionInRange(r)
      && Reclamped(a, r)
    ensures Valid(a) ==> Valid(r)
    ensures Invariant(a) ==> Invariant(r)
  {
    if a.selectedColumn > 0 then ClampSelection(a.(selectedColumn := a.selectedColumn - 1)) else a
  }

  /** `move_right`; `columns.len() - 1` needs a column to exist. */
  function MoveRight(a: App): (r: App)
    requires HasBoard(a) && |Columns(a)| > 0
    ensures a.selectedColumn >= |Columns(a)| - 1 ==> r == a
    ensures a.selectedColumn < |Columns(a)| - 1 ==>
      && r == a.(selectedColumn := a.selectedColumn + 1, selectedIndex := r.selectedIndex,
                 scrollOffset := r.scrollOffset)
      && HasColumn(r) && SelectionInRange(r)
      && Reclamped(a, r)
    ensures Valid(a) ==> Valid(r)
    ensures Invariant(a) ==> Invariant(r)
  {
    if a.selectedColumn < |Columns(a)| - 1 then ClampSelection(a.(selectedColumn := a.selectedColumn + 1)) else a
  }

  /** The largest useful scroll offset: `len - visible`, or 0 when everything fits. */
  function MaxScroll(len: nat, visible: nat): nat {
    if len > visible then len - visible else 0
  }

  /** `update_scroll`: scroll just far enough that the selection is on screen, never past the
      end of the column. */
  function UpdateScroll(a: App): (r: App)
    requires a.visibleItems > 0 ==> HasBoard(a)
    ensures r == a.(scrollOffset := r.scrollOffset)
    ensures a.visibleItems == 0 ==> r == a
    ensures a.visibleItems > 0 ==> r.scrollOffset <= MaxScroll(ColumnLen(a), a.visibleItems)
    ensures a.visibleItems > 0 && a.selectedIndex < ColumnLen(a) ==>
      r.scrollOffset <= r.selectedIndex < r.scrollOffset + r.visibleItems
    ensures a.visibleItems > 0 && a.selectedIndex >= a.scrollOffset + a.visibleItems ==>
      r.scrollOffset == Min(a.selectedIndex - a.visibleItems + 1, MaxScroll(ColumnLen(a), a.visibleItems))
    ensures a.visibleItems > 0 && a.selectedIndex < ColumnLen(a) && a.selectedIndex >= a.scrollOffset + a.visibleItems ==>
      r.scrollOffset == a.selectedIndex - a.visibleItems + 1
    ensures a.visibleItems > 0 && a.selectedIndex < a.scrollOffset ==>
      r.scrollOffset == Min(a.selectedIndex, MaxScroll(ColumnLen(a), a.visibleItems))
    ensures a.visibleItems > 0 && a.scrollOffset <= a.selectedIndex < a.scrollOffset + a.visibleItems ==>
      r.scrollOffset == Min(a.scrollOffset, MaxScroll(ColumnLen(a), a.visibleItems))
    ensures (&& a.visibleItems > 0
             && a.scrollOffset <= a.selectedIndex < a.scrollOffset + a.visibleItems
             && a.scrollOffset <= MaxScroll(ColumnLen(a), a.visibleItems)) ==> r == a
    ensures Valid(a) ==> Valid(r)
    ensures Invariant(a) ==> Invariant(r)
  {
    if a.visibleItems == 0 then a
    else
      var v := a.visibleItems;
      var i := a.selectedIndex;
      var maxScroll := MaxScroll(ColumnLen(a), v);
      var s1 := if i >= a.scrollOffset + v then i - v + 1 else a.scrollOffset;
      var s2 := if i < s1 then i else s1;
      var s3 := if s2 > maxScroll then maxScroll else s2;
      a.(scrollOffset := s3)
  }

  /** Recomputing the scroll offset a second time changes nothing. */
  lemma UpdateScrollIdempotent(a: App)
    requires a.visibleItems > 0 ==> HasBoard(a)
    ensures UpdateScroll(UpdateScroll(a)) == UpdateScroll(a)
  {
  }
}

=== FILE: project_ops.dfy ===
/** The project list: opening it, moving the highlight, switching to, adding and deleting
    projects. */
module ProjectOps {
  import opened Wrappers
  import opened Seqs
  import opened BoardModel
  import opened AppState

  /** `open_project_list`: the highlight starts on the current project. */
  function OpenProjectList(a: App): (r: App)
    ensures r.inputMode == ProjectList && r.selectedProjectIndex == a.currentProject
    ensures r == a.(inputMode := r.inputMode, selectedProjectIndex := r.selectedProjectIndex)
    ensures UiOnly(a, r) && r.inputBuffer == a.inputBuffer
    ensures Valid(a) ==> Valid(r)
    ensures Invariant(a) ==> Invariant(r)
  {
    a.(inputMode := ProjectList, selectedProjectIndex := a.currentProject)
  }

  /** `select_project`: the highlighted project becomes current and is shown from its first
      column and first task. */
  function SelectProject(a: App): (r: App)
    ensures r == a.(currentProject := r.currentProject, inputMode := r.inputMode, selectedColumn := r.selectedColumn,
                    selectedIndex := r.selectedIndex, scrollOffset := r.scrollOffset)
    ensures r.currentProject == a.selectedProjectIndex && r.inputMode == Normal
    ensures r.selectedColumn == 0 && r.selectedIndex == 0 && r.scrollOffset == 0
    ensures r.projects == a.projects && r.lastSaved == a.lastSaved
    ensures r.selectedProjectIndex == a.selectedProjectIndex && r.inputBuffer == a.inputBuffer
    ensures Valid(a) ==> Invariant(r)
  {
    a.(currentProject := a.selectedProjectIndex, inputMode := Normal,
       selectedColumn := 0, selectedIndex := 0, scrollOffset := 0)
  }

  /** Opening the list and selecting straight away keeps the current project. */
  lemma OpenThenSelectKeepsProject(a: App)
    ensures SelectProject(OpenProjectList(a)).currentProject == a.currentProject
    ensures SelectProject(OpenProjectList(a)).projects == a.projects
  {
  }

  /** `move_project_up`. */
  function MoveProjectUp(a: App): (r: App)
    ensures r == a.(selectedProjectIndex := r.selectedProjectIndex)
    ensures a.selectedProjectIndex == 0 ==> r == a
    ensures a.selectedProjectIndex > 0 ==> r.selectedProjectIndex == a.selectedProjectIndex - 1
    ensures Valid(a) ==> Valid(r)
    ensures Invariant(a) ==> Invariant(r)
  {
    if a.selectedProjectIndex > 0 then a.(selectedProjectIndex := a.selectedProjectIndex - 1) else a
  }

  /** `move_project_down`; `projects.len() - 1` needs a project to exist. */
  function MoveProjectDown(a: App): (r: App)
    requires |a.projects| > 0
    ensures r == a.(selectedProjectIndex := r.selectedProjectIndex)
    ensures a.selectedProjectIndex >= |a.projects| - 1 ==> r == a
    ensures a.selectedProjectIndex < |a.projects| - 1 ==>
      r.selectedProjectIndex == a.selectedProjectIndex + 1 && r.selectedProjectIndex < |a.projects|
    ensures Valid(a) ==> Valid(r)
    ensures Invariant(a) ==> Invariant(r)
  {
    if a.selectedProjectIndex < |a.projects| - 1 then a.(selectedProjectIndex := a.selectedProjectIndex + 1) else a
  }

  /** Moving the highlight down and back up returns to the same project. */
  lemma ProjectMovesAreInverse(a: App)
    requires a.selectedProjectIndex < |a.projects| - 1
    ensures MoveProjectUp(MoveProjectDown(a)) == a
  {
  }

  /** `start_adding_project`. */
  function StartAddingProject(a: App): (r: App)
    ensures r.inputMode == AddingProject && r.inputBuffer == []
    ensures r == a.(inputMode := r.inputMode, inputBuffer := r.inputBuffer)
    ensures UiOnly(a, r) && r.selectedProjectIndex == a.selectedProjectIndex
  {
    a.(inputMode := AddingProject, inputBuffer := [])
  }

  /** `delete_project`, as written: the highlighted project is removed (never the last one) and
      both indices are clamped to the shorter list. `current_project` is not shifted when an
      earlier project goes, and the board selection is kept whatever board is now current. */
  function DeleteProject(a: App): (r: App)
    requires |a.projects| > 1 ==> a.selectedProjectIndex < |a.projects|
    ensures r == a.(projects := r.projects, lastSaved := r.lastSaved, currentProject := r.currentProject,
                    selectedProjectIndex := r.selectedProjectIndex)
    ensures |a.projects| <= 1 ==> r == a
    ensures |a.projects| > 1 ==>
      && r.projects == RemoveAt(a.projects, a.selectedProjectIndex)
      && r.selectedProjectIndex == Min(a.selectedProjectIndex, |a.projects| - 2)
      && r.currentProject == Min(a.currentProject, |a.projects| - 2)
      && r.selectedColumn == a.selectedColumn && r.selectedIndex == a.selectedIndex
      && r.scrollOffset == a.scrollOffset && r.inputMode == a.inputMode
      && r.lastSaved == Some(r.projects)
    ensures Usable(a.projects) ==> Usable(r.projects)
  {
    if |a.projects| > 1 then
      var ps := RemoveAt(a.projects, a.selectedProjectIndex);
      var spi := if a.selectedProjectIndex >= |ps| then |ps| - 1 else a.selectedProjectIndex;
      var cur := if a.currentProject >= |ps| then |ps| - 1 else a.currentProject;
      Save(a.(projects := ps, selectedProjectIndex := spi, currentProject := cur))
    else a
  }

  /** Three projects, the second (five columns, fifth selected) current, the first highlighted. */
  function DeleteScenario(): App {
    var wide := Board(NewBoard().columns + [NewColumn("x", "X")]);
    App([NewProject("A"), Project("B", wide), NewProject("C")],
        1, 0, 4, 0, 0, InitialVisibleItems, ProjectList, [], Title, None)
  }

  /** Deleting a project listed before the current one silently switches the current project to
      its successor and leaves the selection on a column that board does not have. */
  lemma DeleteProjectSwitchesProject()
    ensures Invariant(DeleteScenario())
    ensures var r := DeleteProject(DeleteScenario());
      && r.projects[r.currentProject].name == "C"
      && DeleteScenario().projects[DeleteScenario().currentProject].name == "B"
      && !Valid(r)
  {
    var a := DeleteScenario();
    var cs := Columns(a);
    assert |cs| == 5 && cs[4] == NewColumn("x", "X");
    assert GetColumn(CurrentBoard(a), 4) == Some(cs[4]);
    assert Usable(a.projects) by {
      assert |a.projects[0].board.columns| == 4 && |a.projects[2].board.columns| == 4;
    }
    var r := DeleteProject(a);
    assert r.projects == [a.projects[1], a.projects[2]];
    assert r.currentProject == 1 && |Columns(r)| == 4;
  }

  /** `delete_project`, corrected: the current project stays current when another one is
      removed; when the current project itself is removed, its successor (or the new last
      project) becomes current and is shown from its first column. */
  function DeleteProjectCorrected(a: App): (r: App)
    requires |a.projects| > 1 ==> a.selectedProjectIndex < |a.projects|
    ensures r == a.(projects := r.projects, lastSaved := r.lastSaved, currentProject := r.currentProject,
                    selectedProjectIndex := r.selectedProjectIndex, selectedColumn := r.selectedColumn,
                    selectedIndex := r.selectedIndex, scrollOffset := r.scrollOffset)
    ensures |a.projects| <= 1 ==> r == a
    ensures |a.projects| > 1 ==>
      && r.projects == RemoveAt(a.projects, a.selectedProjectIndex)
      && r.selectedProjectIndex == Min(a.selectedProjectIndex, |a.projects| - 2)
      && r.inputMode == a.inputMode
      && r.lastSaved == Some(r.projects)
    ensures |a.projects| > 1 && a.currentProject < |a.projects| && a.selectedProjectIndex != a.currentProject ==>
      && r.currentProject < |r.projects|
      && r.projects[r.currentProject] == a.projects[a.currentProject]
      && r.selectedColumn == a.selectedColumn && r.selectedIndex == a.selectedIndex
      && r.scrollOffset == a.scrollOffset
    ensures |a.projects| > 1 && a.selectedProjectIndex == a.currentProject ==>
      && r.currentProject == Min(a.currentProject, |a.projects| - 2)
      && r.selectedColumn == 0 && r.selectedIndex == 0 && r.scrollOffset == 0
    ensures Valid(a) ==> Valid(r)
    ensures Invariant(a) ==> Invariant(r)
  {
    if |a.projects| > 1 then
      var ps := RemoveAt(a.projects, a.selectedProjectIndex);
      var spi := if a.selectedProjectIndex >= |ps| then |ps| - 1 else a.selectedProjectIndex;
      var a' := a.(projects := ps, selectedProjectIndex := spi);
      if a.selectedProjectIndex < a.currentProject then
        Save(a'.(currentProject := a.currentProject - 1))
      else if a.selectedProjectIndex > a.currentProject then
        Save(a')
      else
        var cur := if a.currentProject >= |ps| then |ps| - 1 else a.currentProject;
        Save(a'.(currentProject := cur, selectedColumn := 0, selectedIndex := 0, scrollOffset := 0))
    else a
  }

  /** Where the current project lies after the highlighted one, the written and the corrected
      deletion coincide. */
  lemma DeleteProjectAgreesAfterCurrent(a: App)
    requires |a.projects| > 1 && a.currentProject < a.selectedProjectIndex < |a.projects|
    ensures DeleteProjectCorrected(a) == DeleteProject(a)
  {
  }
}

=== FILE: seqs.dfy ===
/** Index-based sequence edits used by the board: `Vec::remove` and `slice::swap`. */
module Seqs {

  /** `Vec::remove(i)`: the element at `i` is taken out and the later ones shift left. */
  function RemoveAt<T>(s: seq<T>, i: nat): (r: seq<T>)
    requires i < |s|
    ensures |r| == |s| - 1
    ensures forall j :: 0 <= j < i ==> r[j] == s[j]
    ensures forall j :: i <= j < |r| ==> r[j] == s[j + 1]
    ensures multiset(r) + multiset{s[i]} == multiset(s)
  {
    assert s == s[..i] + [s[i]] + s[i + 1..];
    s[..i] + s[i + 1..]
  }

  /** `slice::swap(i, j)`: the two positions exchange their elements, nothing else moves. */
  function Swap<T>(s: seq<T>, i: nat, j: nat): (r: seq<T>)
    requires i < |s| && j < |s|
    ensures |r| == |s|
    ensures r[i] == s[j] && r[j] == s[i]
    ensures forall k :: 0 <= k < |s| && k != i && k != j ==> r[k] == s[k]
    ensures multiset(r) == multiset(s)
  {
    s[i := s[j]][j := s[i]]
  }

  /** No element occurs twice. */
  predicate NoDuplicates<T(==)>(s: seq<T>) {
    forall i, j :: 0 <= i < j < |s| ==> s[i] != s[j]
  }
}

=== FILE: storage.dfy ===
/** The persistence gateway: the two legacy shapes, their conversion into the current shape,
    and the newest-to-oldest load cascade. File reads, paths and JSON parsing are abstracted
    into the parse outcome of each file; a save is recorded as the collection written. */
module Storage {
  import opened Wrappers
  import opened BoardModel

  /** The oldest board shape: four fixed task lists and no column identity. */
  datatype LegacyBoard = LegacyBoard(todo: seq<Task>, inProgress: seq<Task>, testing: seq<Task>, done: seq<Task>)

  /** The intermediate project shape, whose board is a `LegacyBoard`. */
  datatype LegacyProject = LegacyProject(name: string, board: LegacyBoard)

  /** What `load_projects` returns, together with the collection it wrote back, if any. */
  datatype Loaded = Loaded(projects: seq<Project>, written: Option<seq<Project>>)

  /** The fixed fields of a legacy board, in canonical column order. */
  function LegacyLists(lb: LegacyBoard): seq<seq<Task>> {
    [lb.todo, lb.inProgress, lb.testing, lb.done]
  }

  /** `From<LegacyBoard> for Board`: each fixed list becomes a canonical column, in order. */
  function BoardFromLegacy(lb: LegacyBoard): (b: Board)
    ensures HasDefaultLayout(b)
    ensures forall k :: 0 <= k < |b.columns| ==> b.columns[k].tasks == LegacyLists(lb)[k]
    ensures ColumnTasks(b.columns)
         == multiset(lb.todo) + multiset(lb.inProgress) + multiset(lb.testing) + multiset(lb.done)
  {
    var b := Board([
      BoardColumn("todo", "To Do", lb.todo),
      BoardColumn("in_progress", "In Progress", lb.inProgress),
      BoardColumn("testing", "Testing", lb.testing),
      BoardColumn("done", "Done", lb.done)
    ]);
    var cs := b.columns;
    assert ColumnTasks(cs[3..]) == multiset(lb.done) by { assert cs[3..][1..] == []; }
    assert ColumnTasks(cs[2..]) == multiset(lb.testing) + multiset(lb.done) by { assert cs[2..][1..] == cs[3..]; }
    assert ColumnTasks(cs[1..]) == multiset(lb.inProgress) + multiset(lb.testing) + multiset(lb.done)
      by { assert cs[1..][1..] == cs[2..]; }
    b
  }

  /** The partial inverse of `BoardFromLegacy`: defined exactly on boards of canonical layout. */
  function LegacyOf(b: Board): (r: Option<LegacyBoard>)
    ensures r.Some? <==> HasDefaultLayout(b)
  {
    if HasDefaultLayout(b) then
      Some(LegacyBoard(b.columns[0].tasks, b.columns[1].tasks, b.columns[2].tasks, b.columns[3].tasks))
    else None
  }

  /** Converting a legacy board loses nothing: it can be read back. */
  lemma LegacyRoundTrip(lb: LegacyBoard)
    ensures LegacyOf(BoardFromLegacy(lb)) == Some(lb)
  {
  }

  /** Every canonical-layout board is the conversion of exactly the legacy board read from it. */
  lemma LegacyOfInverts(b: Board)
    requires HasDefaultLayout(b)
    ensures BoardFromLegacy(LegacyOf(b).value) == b
  {
    var c := BoardFromLegacy(LegacyOf(b).value);
    assert c.columns == b.columns;
  }

  /** A fresh board is what an empty legacy board converts to. */
  lemma EmptyLegacyIsNewBoard()
    ensures BoardFromLegacy(LegacyBoard([], [], [], [])) == NewBoard()
  {
  }

  /** `From<LegacyProject> for Project`. */
  function ProjectFromLegacy(lp: LegacyProject): (p: Project)
    ensures p.name == lp.name
    ensures LegacyOf(p.board) == Some(lp.board)
  {
    LegacyRoundTrip(lp.board);
    Project(lp.name, BoardFromLegacy(lp.board))
  }

  /** The element-wise conversion `into_iter().map(Into::into).collect()`. */
  function ProjectsFromLegacy(lps: seq<LegacyProject>): (ps: seq<Project>)
    ensures |ps| == |lps|
    ensures forall k :: 0 <= k < |lps| ==> ps[k].name == lps[k].name && LegacyOf(ps[k].board) == Some(lps[k].board)
    ensures forall k :: 0 <= k < |ps| ==> |ps[k].board.columns| == |DefaultIds|
  {
    if |lps| == 0 then []
    else [ProjectFromLegacy(lps[0])] + ProjectsFromLegacy(lps[1..])
  }

  /** `load_projects`, given how each of the three files parsed (`None` = absent or unparsable):
      the current `projects.json`, the previous product's `projects.json`, and its `board.json`. */
  function LoadProjects(current: Option<seq<Project>>, intermediate: Option<seq<LegacyProject>>,
                        oldest: Option<LegacyBoard>): (r: Loaded)
    ensures current.Some? ==> r.projects == current.value && r.written == None
    ensures current.None? && intermediate.Some? ==>
      && |r.projects| == |intermediate.value|
      && (forall k :: 0 <= k < |r.projects| ==>
            r.projects[k].name == intermediate.value[k].name
            && LegacyOf(r.projects[k].board) == Some(intermediate.value[k].board))
      && r.written == Some(r.projects)
    ensures current.None? && intermediate.None? && oldest.Some? ==>
      && |r.projects| == 1
      && r.projects[0].name == "Default"
      && LegacyOf(r.projects[0].board) == Some(oldest.value)
      && r.written == Some(r.projects)
    ensures current.None? && intermediate.None? && oldest.None? ==>
      r.projects == [NewProject("Default")] && r.written == None
    ensures r.written.Some? ==> r.written.value == r.projects
  {
    if current.Some? then
      Loaded(current.value, None)
    else if intermediate.Some? then
      var ps := ProjectsFromLegacy(intermediate.value);
      Loaded(ps, Some(ps))
    else if oldest.Some? then
      var p := Project("Default", BoardFromLegacy(oldest.value));
      LegacyRoundTrip(oldest.value);
      Loaded([p], Some([p]))
    else
      Loaded([NewProject("Default")], None)
  }

  /** Migration is idempotent: once a legacy file has been converted and written back (and the
      write reads back as written), the next load takes the current-format path, returns the
      same collection and writes nothing, whatever the legacy files still hold. */
  lemma MigrationIsIdempotent(current: Option<seq<Project>>, intermediate: Option<seq<LegacyProject>>,
                              oldest: Option<LegacyBoard>,
                              intermediate2: Option<seq<LegacyProject>>, oldest2: Option<LegacyBoard>)
    requires LoadProjects(current, intermediate, oldest).written.Some?
    ensures var first := LoadProjects(current, intermediate, oldest);
            LoadProjects(first.written, intermediate2, oldest2) == Loaded(first.projects, None)
  {
  }

  /** The load cascade as written can return no project at all. */
  lemma LoadMayReturnNoProjects()
    ensures LoadProjects(Some([]), None, None).projects == []
    ensures LoadProjects(None, Some([]), None).projects == []
  {
  }

  /** The load cascade with a collection that parses but is not usable (no project, or a board
      with no column) treated like an unparsable file at its level, so the cascade falls through. */
  function LoadProjectsCorrected(current: Option<seq<Project>>, intermediate: Option<seq<LegacyProject>>,
                                 oldest: Option<LegacyBoard>): (r: Loaded)
    ensures Usable(r.projects)
    ensures current.Some? && Usable(current.value) ==> r == LoadProjects(current, intermediate, oldest)
    ensures r.written.Some? ==> r.written.value == r.projects
    ensures !(current.Some? && Usable(current.value)) && r.written == None ==>
      r.projects == [NewProject("Default")]
  {
    if current.Some? && Usable(current.value) then
      LoadProjects(current, intermediate, oldest)
    else if intermediate.Some? && |intermediate.value| > 0 then
      LoadProjects(None, intermediate, oldest)
    else
      LoadProjects(None, None, oldest)
  }

  /** The corrected cascade is idempotent in the same way. */
  lemma CorrectedMigrationIsIdempotent(current: Option<seq<Project>>, intermediate: Option<seq<LegacyProject>>,
                                       oldest: Option<LegacyBoard>,
                                       intermediate2: Option<seq<LegacyProject>>, oldest2: Option<LegacyBoard>)
    requires LoadProjectsCorrected(current, intermediate, oldest).written.Some?
    ensures var first := LoadProjectsCorrected(current, intermediate, oldest);
            LoadProjectsCorrected(first.written, intermediate2, oldest2) == Loaded(first.projects, None)
  {
  }

  /** A legacy board `{todo: [a], in_progress: [], testing: [b], done: []}` found alone on disk
      loads as one project "Default" whose four canonical columns hold `[a]`, `[]`, `[b]`, `[]`,
      and the next load reads the rewritten current-format file without converting again. The
      corrected cascade does the same. */
  lemma OldestBoardScenario(a: Task, b: Task)
    ensures var first := LoadProjects(None, None, Some(LegacyBoard([a], [], [b], [])));
      && |first.projects| == 1
      && first.projects[0].name == "Default"
      && HasDefaultLayout(first.projects[0].board)
      && first.projects[0].board.columns[0].tasks == [a]
      && first.projects[0].board.columns[1].tasks == []
      && first.projects[0].board.columns[2].tasks == [b]
      && first.projects[0].board.columns[3].tasks == []
      && first.written == Some(first.projects)
      && LoadProjects(first.written, None, None) == Loaded(first.projects, None)
      && LoadProjectsCorrected(None, None, Some(LegacyBoard([a], [], [b], []))) == first
  {
    var lb := LegacyBoard([a], [], [b], []);
    var first := LoadProjects(None, None, Some(lb));
    LegacyOfInverts(first.projects[0].board);
  }
}

=== FILE: submit.dfy ===
/** The text-input modes: typing into the buffer, and what submitting the buffer does in each
    mode, including the column-id slug and project creation. */
module Submit {
  import opened Wrappers
  import opened Seqs
  import opened BoardModel
  import opened AppState
  import opened Navigation
  import opened TaskOps
  import opened ColumnOps

  // ---------------------------------------------------------------- the buffer

  /** `input_char`. */
  function InputChar(a: App, ch: char): (r: App)
    ensures r.inputBuffer == a.inputBuffer + [ch]
    ensures r == a.(inputBuffer := r.inputBuffer)
  {
    a.(inputBuffer := a.inputBuffer + [ch])
  }

  /** `input_backspace`: drop the last character, if any. */
  function InputBackspace(a: App): (r: App)
    ensures |a.inputBuffer| > 0 ==> r.inputBuffer + [a.inputBuffer[|a.inputBuffer| - 1]] == a.inputBuffer
    ensures |a.inputBuffer| == 0 ==> r == a
    ensures r == a.(inputBuffer := r.inputBuffer)
  {
    if |a.inputBuffer| > 0 then a.(inputBuffer := a.inputBuffer[..|a.inputBuffer| - 1]) else a
  }

  /** Backspace undoes a typed character. */
  lemma BackspaceUndoesChar(a: App, ch: char)
    ensures InputBackspace(InputChar(a, ch)) == a
  {
    assert (a.inputBuffer + [ch])[..|a.inputBuffer|] == a.inputBuffer;
  }

  /** Escape while editing a title: back to the detail view, nothing written. */
  function EscEditingTitle(a: App): (r: App)
    ensures r.inputMode == ViewingTask && r.inputBuffer == []
    ensures r == a.(inputMode := r.inputMode, inputBuffer := r.inputBuffer)
  {
    a.(inputMode := ViewingTask, inputBuffer := [])
  }

  /** Escape while naming a new project: back to the project list, nothing written. */
  function EscAddingProject(a: App): (r: App)
    ensures r.inputMode == ProjectList && r.inputBuffer == []
    ensures r == a.(inputMode := r.inputMode, inputBuffer := r.inputBuffer)
  {
    a.(inputMode := ProjectList, inputBuffer := [])
  }

  // ---------------------------------------------------------------- column-id slug

  /** ASCII-only lower-casing. */
  function AsciiLower(ch: char): char {
    if 'A' <= ch <= 'Z' then (ch as int - 'A' as int + 'a' as int) as char else ch
  }

  /** One character of `to_lowercase().replace(" ", "_")`. */
  function SlugChar(ch: char): char {
    var l := AsciiLower(ch);
    if l == ' ' then '_' else l
  }

  /** The id derived from a new column's name. */
  function Slug(name: string): (id: string)
    ensures |id| == |name|
    ensures forall k :: 0 <= k < |name| ==> id[k] == SlugChar(name[k])
  {
    if |name| == 0 then [] else [SlugChar(name[0])] + Slug(name[1..])
  }

  /** A slug holds no space and no upper-case ASCII letter, and slugging it again changes nothing. */
  lemma SlugIsNormal(name: string)
    ensures ' ' !in Slug(name)
    ensures forall k :: 0 <= k < |name| ==> !('A' <= Slug(name)[k] <= 'Z')
    ensures Slug(Slug(name)) == Slug(name)
  {
  }

  // ---------------------------------------------------------------- submit, mode by mode

  /** Submit in AddingTask: a non-empty buffer becomes a new last task, which is selected. */
  function SubmitTask(a: App): (r: App)
    requires |a.inputBuffer| > 0 ==> HasColumn(a)
    ensures r.inputMode == Normal && r.inputBuffer == []
    ensures r == a.(projects := r.projects, lastSaved := r.lastSaved, selectedIndex := r.selectedIndex,
                    scrollOffset := r.scrollOffset, inputMode := r.inputMode, inputBuffer := r.inputBuffer)
    ensures |a.inputBuffer| == 0 ==> UiOnly(a, r)
    ensures |a.inputBuffer| > 0 ==>
      var c := a.selectedColumn;
      && HasSelectedTask(r)
      && OnlyColumnChanged(Columns(a), Columns(r), c)
      && Columns(r)[c] == Columns(a)[c].(tasks := Columns(a)[c].tasks + [NewTask(a.inputBuffer)])
      && r.selectedColumn == c
      && r.selectedIndex == |Columns(a)[c].tasks|
      && (a.visibleItems > 0 ==> r.scrollOffset <= r.selectedIndex < r.scrollOffset + a.visibleItems)
      && (a.visibleItems > 0 && r.selectedIndex >= a.scrollOffset + a.visibleItems ==>
            r.scrollOffset + a.visibleItems == r.selectedIndex + 1)
      && (a.visibleItems > 0 ==> r.scrollOffset == MaxScroll(|Columns(a)[c].tasks| + 1, a.visibleItems))
      && (a.visibleItems == 0 ==> r.scrollOffset == a.scrollOffset)
      && SameProjectsExceptBoard(a, r)
      && r.lastSaved == Some(r.projects)
    ensures Valid(a) ==> Valid(r)
    ensures Invariant(a) ==> Invariant(r)
  {
    if |a.inputBuffer| == 0 then CancelInput(a)
    else
      var c := a.selectedColumn;
      var col := Columns(a)[c];
      var col' := col.(tasks := col.tasks + [NewTask(a.inputBuffer)]);
      var b := WithBoard(a, PutColumn(CurrentBoard(a), c, col'));
      CancelInput(Save(UpdateScroll(b.(selectedIndex := |col'.tasks| - 1))))
  }

  /** Submit in AddingTag: a non-empty buffer is added, deduplicated, to the selected task. */
  function SubmitTag(a: App): (r: App)
    requires |a.inputBuffer| > 0 ==> HasColumn(a)
    ensures r.inputMode == Normal && r.inputBuffer == []
    ensures r == a.(projects := r.projects, lastSaved := r.lastSaved,
                    inputMode := r.inputMode, inputBuffer := r.inputBuffer)
    ensures !(|a.inputBuffer| > 0 && HasSelectedTask(a)) ==> UiOnly(a, r)
    ensures |a.inputBuffer| > 0 && HasSelectedTask(a) ==>
      var t := Columns(a)[a.selectedColumn].tasks[a.selectedIndex];
      && HasSelectedTask(r)
      && OnlyTaskChanged(Columns(a), Columns(r), a.selectedColumn, a.selectedIndex)
      && Columns(r)[a.selectedColumn].tasks[a.selectedIndex] == AddTag(t, a.inputBuffer)
      && SameProjectsExceptBoard(a, r)
      && r.selectedColumn == a.selectedColumn && r.selectedIndex == a.selectedIndex
      && r.lastSaved == Some(r.projects)
    ensures Valid(a) ==> Valid(r)
    ensures Invariant(a) ==> Invariant(r)
  {
    if |a.inputBuffer| > 0 && HasSelectedTask(a) then
      var t := Columns(a)[a.selectedColumn].tasks[a.selectedIndex];
      CancelInput(Save(UpdateTask(a, AddTag(t, a.inputBuffer))))
    else CancelInput(a)
  }

  /** Submit in EditingTitle: a non-empty buffer replaces the title; an empty one is ignored. */
  function SubmitTitle(a: App): (r: App)
    requires |a.inputBuffer| > 0 ==> HasColumn(a)
    ensures r.inputMode == ViewingTask && r.inputBuffer == []
    ensures r == a.(projects := r.projects, lastSaved := r.lastSaved,
                    inputMode := r.inputMode, inputBuffer := r.inputBuffer)
    ensures !(|a.inputBuffer| > 0 && HasSelectedTask(a)) ==> UiOnly(a, r)
    ensures |a.inputBuffer| > 0 && HasSelectedTask(a) ==>
      var t := Columns(a)[a.selectedColumn].tasks[a.selectedIndex];
      && HasSelectedTask(r)
      && OnlyTaskChanged(Columns(a), Columns(r), a.selectedColumn, a.selectedIndex)
      && Columns(r)[a.selectedColumn].tasks[a.selectedIndex] == t.(title := a.inputBuffer)
      && SameProjectsExceptBoard(a, r)
      && r.selectedColumn == a.selectedColumn && r.selectedIndex == a.selectedIndex
      && r.lastSaved == Some(r.projects)
    ensures Valid(a) ==> Valid(r)
    ensures Invariant(a) ==> Invariant(r)
  {
    var a' := if |a.inputBuffer| > 0 && HasSelectedTask(a) then
                var t := Columns(a)[a.selectedColumn].tasks[a.selectedIndex];
                Save(UpdateTask(a, t.(title := a.inputBuffer)))
              else a;
    a'.(inputMode := ViewingTask, inputBuffer := [])
  }

  /** Submit in EditingDescription: the buffer replaces the description, even when empty. */
  function SubmitDescription(a: App): (r: App)
    requires HasColumn(a)
    ensures r.inputMode == ViewingTask && r.inputBuffer == []
    ensures r == a.(projects := r.projects, lastSaved := r.lastSaved,
                    inputMode := r.inputMode, inputBuffer := r.inputBuffer)
    ensures !HasSelectedTask(a) ==> UiOnly(a, r)
    ensures HasSelectedTask(a) ==>
      var t := Columns(a)[a.selectedColumn].tasks[a.selectedIndex];
      && HasSelectedTask(r)
      && OnlyTaskChanged(Columns(a), Columns(r), a.selectedColumn, a.selectedIndex)
      && Columns(r)[a.selectedColumn].tasks[a.selectedIndex] == t.(description := a.inputBuffer)
      && SameProjectsExceptBoard(a, r)
      && r.selectedColumn == a.selectedColumn && r.selectedIndex == a.selectedIndex
      && r.lastSaved == Some(r.projects)
    ensures Valid(a) ==> Valid(r)
    ensures Invariant(a) ==> Invariant(r)
  {
    var a' := if HasSelectedTask(a) then
                var t := Columns(a)[a.selectedColumn].tasks[a.selectedIndex];
                Save(UpdateTask(a, t.(description := a.inputBuffer)))
              else a;
    a'.(inputMode := ViewingTask, inputBuffer := [])
  }

  /** Submit in AddingProject, as written: the new project becomes current and highlighted,
      but the column, task and scroll selection of the previous board are kept. */
  function SubmitProject(a: App): (r: App)
    ensures r.inputMode == ProjectList && r.inputBuffer == []
    ensures r == a.(projects := r.projects, lastSaved := r.lastSaved, currentProject := r.currentProject,
                    selectedProjectIndex := r.selectedProjectIndex,
                    inputMode := r.inputMode, inputBuffer := r.inputBuffer)
    ensures |a.inputBuffer| == 0 ==> UiOnly(a, r) && r.selectedProjectIndex == a.selectedProjectIndex
    ensures |a.inputBuffer| > 0 ==>
      && r.projects == a.projects + [NewProject(a.inputBuffer)]
      && r.currentProject == |a.projects| && r.selectedProjectIndex == |a.projects|
      && r.selectedColumn == a.selectedColumn && r.selectedIndex == a.selectedIndex
      && r.scrollOffset == a.scrollOffset
      && r.lastSaved == Some(r.projects)
    ensures Usable(a.projects) ==> Usable(r.projects)
  {
    var a' := if |a.inputBuffer| > 0 then
                var ps := a.projects + [NewProject(a.inputBuffer)];
                Save(a.(projects := ps, currentProject := |ps| - 1, selectedProjectIndex := |ps| - 1))
              else a;
    a'.(inputMode := ProjectList, inputBuffer := [])
  }

  /** A board with five columns whose last column is selected, while a project is being named. */
  function FiveColumnApp(): App {
    var b := Board(NewBoard().columns + [NewColumn("x", "X")]);
    App([Project("P", b)], 0, 0, 4, 0, 0, InitialVisibleItems, AddingProject, "Q", Title, None)
  }

  /** Creating a project from a board whose fifth column is selected leaves the selection on
      column 4 of the new four-column board; once the list is closed, `delete_task` would
      unwrap a missing column. */
  lemma SubmitProjectKeepsStaleColumn()
    ensures Valid(FiveColumnApp())
    ensures !Valid(SubmitProject(FiveColumnApp()))
    ensures !HasColumn(CloseView(SubmitProject(FiveColumnApp())))
  {
    var a := FiveColumnApp();
    var r := SubmitProject(a);
    assert |Columns(r)| == 4;
  }

  /** Submit in AddingProject, corrected: the new project's board is shown from its first
      column, as `select_project` does. */
  function SubmitProjectCorrected(a: App): (r: App)
    ensures r.inputMode == ProjectList && r.inputBuffer == []
    ensures r == a.(projects := r.projects, lastSaved := r.lastSaved, currentProject := r.currentProject,
                    selectedProjectIndex := r.selectedProjectIndex, selectedColumn := r.selectedColumn,
                    selectedIndex := r.selectedIndex, scrollOffset := r.scrollOffset,
                    inputMode := r.inputMode, inputBuffer := r.inputBuffer)
    ensures |a.inputBuffer| == 0 ==> UiOnly(a, r) && r.selectedProjectIndex == a.selectedProjectIndex
    ensures |a.inputBuffer| > 0 ==>
      && r.projects == a.projects + [NewProject(a.inputBuffer)]
      && r.currentProject == |a.projects| && r.selectedProjectIndex == |a.projects|
      && HasColumn(r) && CurrentBoard(r) == NewBoard()
      && r.selectedColumn == 0 && r.selectedIndex == 0 && r.scrollOffset == 0
      && r.lastSaved == Some(r.projects)
    ensures Valid(a) ==> Valid(r)
    ensures Invariant(a) ==> Invariant(r)
  {
    var a' := if |a.inputBuffer| > 0 then
                var ps := a.projects + [NewProject(a.inputBuffer)];
                Save(a.(projects := ps, currentProject := |ps| - 1, selectedProjectIndex := |ps| - 1,
                        selectedColumn := 0, selectedIndex := 0, scrollOffset := 0))
              else a;
    a'.(inputMode := ProjectList, inputBuffer := [])
  }

  /** Submit in AddingColumn: a non-empty name becomes a new empty last column. */
  function SubmitColumn(a: App): (r: App)
    requires |a.inputBuffer| > 0 ==> HasBoard(a)
    ensures r.inputMode == Normal && r.inputBuffer == []
    ensures r == a.(projects := r.projects, lastSaved := r.lastSaved,
                    inputMode := r.inputMode, inputBuffer := r.inputBuffer)
    ensures |a.inputBuffer| == 0 ==> UiOnly(a, r)
    ensures |a.inputBuffer| > 0 ==>
      && HasBoard(r)
      && |Columns(r)| == |Columns(a)| + 1
      && Columns(r)[..|Columns(a)|] == Columns(a)
      && Columns(r)[|Columns(a)|].name == a.inputBuffer
      && Columns(r)[|Columns(a)|].id == Slug(a.inputBuffer)
      && Columns(r)[|Columns(a)|].tasks == []
      && SameProjectsExceptBoard(a, r)
      && r.selectedColumn == a.selectedColumn && r.selectedIndex == a.selectedIndex
      && r.scrollOffset == a.scrollOffset
      && r.lastSaved == Some(r.projects)
    ensures Valid(a) ==> Valid(r)
    ensures Invariant(a) ==> Invariant(r)
  {
    if |a.inputBuffer| > 0 then
      var col := NewColumn(Slug(a.inputBuffer), a.inputBuffer);
      var cs := Columns(a) + [col];
      assert cs[..|Columns(a)|] == Columns(a);
      CancelInput(Save(WithBoard(a, Board(cs))))
    else CancelInput(a)
  }

  /** Submit in RenamingColumn: a non-empty buffer replaces the selected column's name only. */
  function SubmitRename(a: App): (r: App)
    requires |a.inputBuffer| > 0 ==> HasBoard(a)
    ensures r.inputMode == Normal && r.inputBuffer == []
    ensures r == a.(projects := r.projects, lastSaved := r.lastSaved,
                    inputMode := r.inputMode, inputBuffer := r.inputBuffer)
    ensures !(|a.inputBuffer| > 0 && HasColumn(a)) ==> UiOnly(a, r)
    ensures |a.inputBuffer| > 0 && HasColumn(a) ==>
      && HasColumn(r)
      && OnlyColumnChanged(Columns(a), Columns(r), a.selectedColumn)
      && Columns(r)[a.selectedColumn] == Columns(a)[a.selectedColumn].(name := a.inputBuffer)
      && SameProjectsExceptBoard(a, r)
      && r.selectedColumn == a.selectedColumn && r.selectedIndex == a.selectedIndex
      && r.scrollOffset == a.scrollOffset
      && r.lastSaved == Some(r.projects)
    ensures Valid(a) ==> Valid(r)
    ensures Invariant(a) ==> Invariant(r)
  {
    if |a.inputBuffer| > 0 then
      match GetColumn(CurrentBoard(a), a.selectedColumn)
      case Some(col) =>
        CancelInput(Save(WithBoard(a, PutColumn(CurrentBoard(a), a.selectedColumn, col.(name := a.inputBuffer)))))
      case None => CancelInput(a)
    else CancelInput(a)
  }

  // ---------------------------------------------------------------- submit_input

  /** What each mode's submit needs of the state so that no `unwrap` or index fails. */
  predicate SubmitDemands(a: App) {
    match a.inputMode
    case AddingTask => |a.inputBuffer| > 0 ==> HasColumn(a)
    case AddingTag => |a.inputBuffer| > 0 ==> HasColumn(a)
    case EditingTitle => |a.inputBuffer| > 0 ==> HasColumn(a)
    case EditingDescription => HasColumn(a)
    case AddingColumn => |a.inputBuffer| > 0 ==> HasBoard(a)
    case RenamingColumn => |a.inputBuffer| > 0 ==> HasBoard(a)
    case _ => true
  }

  /** The mode a submit lands in. */
  function ModeAfterSubmit(m: InputMode): InputMode {
    match m
    case EditingTitle => ViewingTask
    case EditingDescription => ViewingTask
    case AddingProject => ProjectList
    case _ => Normal
  }

  /** `submit_input`, as written. */
  function SubmitInput(a: App): (r: App)
    requires SubmitDemands(a)
    ensures r.inputBuffer == [] && r.inputMode == ModeAfterSubmit(a.inputMode)
    ensures a.inputMode in {Normal, ViewingTask, ViewingHelp, ProjectList} ==> UiOnly(a, r)
    ensures a.inputMode in {Normal, ViewingTask, ViewingHelp, ProjectList} ==> r == CancelInput(a)
    ensures a.inputMode == AddingTask ==> r == SubmitTask(a)
    ensures a.inputMode == AddingTag ==> r == SubmitTag(a)
    ensures a.inputMode == EditingTitle ==> r == SubmitTitle(a)
    ensures a.inputMode == EditingDescription ==> r == SubmitDescription(a)
    ensures a.inputMode == AddingProject ==> r == SubmitProject(a)
    ensures a.inputMode == AddingColumn ==> r == SubmitColumn(a)
    ensures a.inputMode == RenamingColumn ==> r == SubmitRename(a)
    ensures WritesTracked(a, r)
    ensures a.inputMode != AddingProject && Valid(a) ==> Valid(r)
    ensures a.inputMode != AddingProject && Invariant(a) ==> Invariant(r)
  {
    match a.inputMode
    case AddingTask => SubmitTask(a)
    case AddingTag => SubmitTag(a)
    case EditingTitle => SubmitTitle(a)
    case EditingDescription => SubmitDescription(a)
    case AddingProject => SubmitProject(a)
    case AddingColumn => SubmitColumn(a)
    case RenamingColumn => SubmitRename(a)
    case _ => CancelInput(a)
  }

  /** `submit_input` with the corrected project creation. */
  function SubmitInputCorrected(a: App): (r: App)
    requires SubmitDemands(a)
    ensures r.inputBuffer == [] && r.inputMode == ModeAfterSubmit(a.inputMode)
    ensures a.inputMode != AddingProject ==> r == SubmitInput(a)
    ensures a.inputMode == AddingProject ==> r == SubmitProjectCorrected(a)
    ensures WritesTracked(a, r)
    ensures Valid(a) ==> Valid(r)
    ensures Invariant(a) ==> Invariant(r)
  {
    if a.inputMode == AddingProject then SubmitProjectCorrected(a) else SubmitInput(a)
  }

  // ---------------------------------------------------------------- round trips through the editors

  /** Renaming a column to the name the editor was pre-filled with leaves the data as it was. */
  lemma RenameUneditedKeepsProjects(a: App)
    requires HasColumn(a)
    ensures SubmitInput(StartRenamingColumn(a)).projects == a.projects
  {
    var s := StartRenamingColumn(a);
    var r := SubmitInput(s);
    if |s.inputBuffer| > 0 {
      assert Columns(r) == Columns(a);
      assert r.projects[a.currentProject] == a.projects[a.currentProject];
    }
  }

  /** Submitting the title editor unchanged leaves the data as it was. */
  lemma TitleUneditedKeepsProjects(a: App)
    requires HasSelectedTask(a)
    ensures var r := SubmitInput(StartEditingTitle(a));
      r.projects == a.projects && r.inputMode == ViewingTask
  {
    var s := StartEditingTitle(a);
    var r := SubmitInput(s);
    if |s.inputBuffer| > 0 {
      assert Columns(r)[a.selectedColumn].tasks == Columns(a)[a.selectedColumn].tasks;
      assert Columns(r) == Columns(a);
      assert r.projects[a.currentProject] == a.projects[a.currentProject];
    }
  }

  /** Submitting the description editor unchanged leaves the data as it was. */
  lemma DescriptionUneditedKeepsProjects(a: App)
    requires HasSelectedTask(a)
    ensures var r := SubmitInput(StartEditingDescription(a));
      r.projects == a.projects && r.inputMode == ViewingTask
  {
    var s := StartEditingDescription(a);
    var r := SubmitInput(s);
    assert Columns(r)[a.selectedColumn].tasks == Columns(a)[a.selectedColumn].tasks;
    assert Columns(r) == Columns(a);
    assert r.projects[a.currentProject] == a.projects[a.currentProject];
  }

  /** Removing, by its number, a tag that was just added restores the data. */
  lemma RemoveTagUndoesAddTag(a: App, tag: string)
    requires HasSelectedTask(a) && |tag| > 0
    requires tag !in Columns(a)[a.selectedColumn].tasks[a.selectedIndex].tags
    ensures var t := Columns(a)[a.selectedColumn].tasks[a.selectedIndex];
      RemoveTag(SubmitTag(a.(inputBuffer := tag)), |t.tags|).projects == a.projects
  {
    var t := Columns(a)[a.selectedColumn].tasks[a.selectedIndex];
    var r1 := SubmitTag(a.(inputBuffer := tag));
    var r2 := RemoveTag(r1, |t.tags|);
    assert RemoveAt(t.tags + [tag], |t.tags|) == t.tags;
    assert Columns(r2)[a.selectedColumn].tasks == Columns(a)[a.selectedColumn].tasks;
    assert Columns(r2) == Columns(a);
    assert r2.projects[a.currentProject] == a.projects[a.currentProject];
  }
}

=== FILE: task_ops.dfy ===
/** Operations on the selected task: moving it between columns, deleting it, the detail view,
    and removing a tag. */
module TaskOps {
  import opened Wrappers
  import opened Seqs
  import opened BoardModel
  import opened AppState
  import opened Navigation

  /** Task `i` left column `src` and was appended to column `dst`; every other column, and
      the ids and names of both, are as before. */
  predicate TaskMoved(cs: seq<BoardColumn>, cs': seq<BoardColumn>, src: nat, dst: nat, i: nat) {
    && src < |cs| && dst < |cs| && src != dst
    && i < |cs[src].tasks|
    && |cs'| == |cs|
    && cs'[src] == cs[src].(tasks := RemoveAt(cs[src].tasks, i))
    && cs'[dst] == cs[dst].(tasks := cs[dst].tasks + [cs[src].tasks[i]])
    && forall k :: 0 <= k < |cs| && k != src && k != dst ==> cs'[k] == cs[k]
  }

  /** A move neither creates nor loses a task. */
  lemma {:induction false} TaskMovedKeepsTasks(cs: seq<BoardColumn>, cs': seq<BoardColumn>, src: nat, dst: nat, i: nat)
    requires TaskMoved(cs, cs', src, dst, i)
    ensures ColumnTasks(cs') == ColumnTasks(cs)
  {
    var t := cs[src].tasks[i];
    var a := cs[src].(tasks := RemoveAt(cs[src].tasks, i));
    var b := cs[dst].(tasks := cs[dst].tasks + [t]);
    var cs1 := cs[src := a];
    assert cs' == cs1[dst := b];
    assert cs1[src := cs[src]] == cs;
    ColumnTasksGrow(cs1, src, cs[src], multiset{t});
    ColumnTasksGrow(cs1, dst, b, multiset{t});
  }

  /** Takes the selected task out of its column, appends it to column `dst`, re-clamps the
      selection and saves: the common body of the two move operations. */
  function TransferTask(a: App, dst: nat): (r: App)
    requires HasSelectedTask(a) && dst < |Columns(a)| && dst != a.selectedColumn
    ensures HasBoard(r)
    ensures TaskMoved(Columns(a), Columns(r), a.selectedColumn, dst, a.selectedIndex)
    ensures ColumnTasks(Columns(r)) == ColumnTasks(Columns(a))
    ensures SameProjectsExceptBoard(a, r) && SameInput(a, r)
    ensures r.selectedColumn == a.selectedColumn && SelectionInRange(r) && Reclamped(a, r)
    ensures r.lastSaved == Some(r.projects)
    ensures Valid(a) ==> Valid(r)
  {
    var b := CurrentBoard(a);
    var c := a.selectedColumn;
    var task := b.columns[c].tasks[a.selectedIndex];
    var b1 := PutColumn(b, c, b.columns[c].(tasks := RemoveAt(b.columns[c].tasks, a.selectedIndex)));
    var b2 := PutColumn(b1, dst, b1.columns[dst].(tasks := b1.columns[dst].tasks + [task]));
    TaskMovedKeepsTasks(b.columns, b2.columns, c, dst, a.selectedIndex);
    Save(ClampSelection(WithBoard(a, b2)))
  }

  /** `move_task_forward`: the selected task goes to the end of the next column. */
  function MoveTaskForward(a: App): (r: App)
    requires HasBoard(a)
    ensures !(a.selectedColumn + 1 < |Columns(a)| && HasSelectedTask(a)) ==> r == a
    ensures a.selectedColumn + 1 < |Columns(a)| && HasSelectedTask(a) ==>
      && HasBoard(r)
      && TaskMoved(Columns(a), Columns(r), a.selectedColumn, a.selectedColumn + 1, a.selectedIndex)
      && ColumnTasks(Columns(r)) == ColumnTasks(Columns(a))
      && SameProjectsExceptBoard(a, r) && SameInput(a, r)
      && r.selectedColumn == a.selectedColumn && Reclamped(a, r)
      && r.lastSaved == Some(r.projects)
    ensures Valid(a) ==> Valid(r)
    ensures Invariant(a) ==> Invariant(r)
  {
    if a.selectedColumn + 1 < |Columns(a)| && a.selectedIndex < |Columns(a)[a.selectedColumn].tasks| then
      TransferTask(a, a.selectedColumn + 1)
    else a
  }

  /** `move_task_backward`: the selected task goes to the end of the previous column. */
  function MoveTaskBackward(a: App): (r: App)
    requires HasBoard(a) && (a.selectedColumn > 0 ==> a.selectedColumn < |Columns(a)|)
    ensures !(a.selectedColumn > 0 && HasSelectedTask(a)) ==> r == a
    ensures a.selectedColumn > 0 && HasSelectedTask(a) ==>
      && HasBoard(r)
      && TaskMoved(Columns(a), Columns(r), a.selectedColumn, a.selectedColumn - 1, a.selectedIndex)
      && ColumnTasks(Columns(r)) == ColumnTasks(Columns(a))
      && SameProjectsExceptBoard(a, r) && SameInput(a, r)
      && r.selectedColumn == a.selectedColumn && Reclamped(a, r)
      && r.lastSaved == Some(r.projects)
    ensures Valid(a) ==> Valid(r)
    ensures Invariant(a) ==> Invariant(r)
  {
    if a.selectedColumn > 0 && a.selectedIndex < |Columns(a)[a.selectedColumn].tasks| then
      TransferTask(a, a.selectedColumn - 1)
    else a
  }

  /** `delete_task`. */
  function DeleteTask(a: App): (r: App)
    requires HasColumn(a)
    ensures !HasSelectedTask(a) ==> r == a
    ensures HasSelectedTask(a) ==>
      && HasBoard(r)
      && OnlyColumnChanged(Columns(a), Columns(r), a.selectedColumn)
      && Columns(r)[a.selectedColumn]
         == Columns(a)[a.selectedColumn].(tasks := RemoveAt(Columns(a)[a.selectedColumn].tasks, a.selectedIndex))
      && ColumnTasks(Columns(r)) + multiset{Columns(a)[a.selectedColumn].tasks[a.selectedIndex]}
         == ColumnTasks(Columns(a))
      && SameProjectsExceptBoard(a, r) && SameInput(a, r)
      && r.selectedColumn == a.selectedColumn && SelectionInRange(r) && Reclamped(a, r)
      && r.lastSaved == Some(r.projects)
    ensures Valid(a) ==> Valid(r)
    ensures Invariant(a) ==> Invariant(r)
  {
    var c := a.selectedColumn;
    var col := Columns(a)[c];
    if a.selectedIndex < |col.tasks| then
      var col' := col.(tasks := RemoveAt(col.tasks, a.selectedIndex));
      var cs' := Columns(a)[c := col'];
      assert cs'[c := col] == Columns(a);
      ColumnTasksGrow(cs', c, col, multiset{col.tasks[a.selectedIndex]});
      Save(ClampSelection(WithBoard(a, PutColumn(CurrentBoard(a), c, col'))))
    else a
  }

  /** `start_adding_task`. */
  function StartAddingTask(a: App): (r: App)
    ensures r.inputMode == AddingTask && r.inputBuffer == []
    ensures r == a.(inputMode := r.inputMode, inputBuffer := r.inputBuffer)
    ensures UiOnly(a, r) && r.selectedProjectIndex == a.selectedProjectIndex
  {
    a.(inputMode := AddingTask, inputBuffer := [])
  }

  /** `start_adding_tag`: only entered when a task is selected. */
  function StartAddingTag(a: App): (r: App)
    requires HasBoard(a)
    ensures !HasSelectedTask(a) ==> r == a
    ensures HasSelectedTask(a) ==> r.inputMode == AddingTag && r.inputBuffer == []
    ensures r.inputMode == AddingTag ==> a.inputMode == AddingTag || HasSelectedTask(a)
    ensures r == a.(inputMode := r.inputMode, inputBuffer := r.inputBuffer)
    ensures UiOnly(a, r) && r.selectedProjectIndex == a.selectedProjectIndex
  {
    if HasSelectedTask(a) then a.(inputMode := AddingTag, inputBuffer := []) else a
  }

  /** `open_task`: the detail view opens on the title, and only over an existing task. */
  function OpenTask(a: App): (r: App)
    requires HasBoard(a)
    ensures !HasSelectedTask(a) ==> r == a
    ensures HasSelectedTask(a) ==> r.inputMode == ViewingTask && r.focusedField == Title
    ensures r.inputMode == ViewingTask ==> a.inputMode == ViewingTask || HasSelectedTask(a)
    ensures UiOnly(a, r) && r.inputBuffer == a.inputBuffer
    ensures r.selectedProjectIndex == a.selectedProjectIndex
  {
    if HasSelectedTask(a) then a.(inputMode := ViewingTask, focusedField := Title) else a
  }

  /** `next_field`: Title, then Tags, then Description, then Title again. */
  function NextField(a: App): (r: App)
    ensures r == a.(focusedField := r.focusedField)
    ensures r.focusedField != a.focusedField
    ensures a.focusedField == Title ==> r.focusedField == Tags
  {
    match a.focusedField
    case Title => a.(focusedField := Tags)
    case Tags => a.(focusedField := Description)
    case Description => a.(focusedField := Title)
  }

  /** The focus ring has exactly three stops. */
  lemma NextFieldCycles(a: App)
    ensures NextField(NextField(NextField(a))) == a
    ensures NextField(a) != a && NextField(NextField(a)) != a
  {
  }

  /** `start_editing_title`: the buffer is pre-filled with the current title. */
  function StartEditingTitle(a: App): (r: App)
    requires HasBoard(a)
    ensures !HasSelectedTask(a) ==> r == a
    ensures HasSelectedTask(a) ==>
      && r.inputMode == EditingTitle
      && r.inputBuffer == Columns(a)[a.selectedColumn].tasks[a.selectedIndex].title
    ensures UiOnly(a, r) && r.focusedField == a.focusedField
    ensures r.selectedProjectIndex == a.selectedProjectIndex
  {
    if HasSelectedTask(a) then
      a.(inputBuffer := Columns(a)[a.selectedColumn].tasks[a.selectedIndex].title, inputMode := EditingTitle)
    else a
  }

  /** `start_editing_description`: the buffer is pre-filled with the current description. */
  function StartEditingDescription(a: App): (r: App)
    requires HasBoard(a)
    ensures !HasSelectedTask(a) ==> r == a
    ensures HasSelectedTask(a) ==>
      && r.inputMode == EditingDescription
      && r.inputBuffer == Columns(a)[a.selectedColumn].tasks[a.selectedIndex].description
    ensures UiOnly(a, r) && r.focusedField == a.focusedField
    ensures r.selectedProjectIndex == a.selectedProjectIndex
  {
    if HasSelectedTask(a) then
      a.(inputBuffer := Columns(a)[a.selectedColumn].tasks[a.selectedIndex].description,
         inputMode := EditingDescription)
    else a
  }

  /** The primary action in the detail view: edit the focused field; tags have no editor. */
  function ActivateField(a: App): (r: App)
    requires HasBoard(a)
    ensures a.focusedField == Tags ==> r == a
    ensures a.focusedField == Title ==> r == StartEditingTitle(a)
    ensures a.focusedField == Description ==> r == StartEditingDescription(a)
    ensures r.inputMode != a.inputMode ==> HasSelectedTask(a)
    ensures r.inputMode == EditingTitle && a.inputMode != EditingTitle ==> a.focusedField == Title
    ensures r.inputMode == EditingDescription && a.inputMode != EditingDescription ==> a.focusedField == Description
    ensures UiOnly(a, r) && r.selectedProjectIndex == a.selectedProjectIndex
  {
    match a.focusedField
    case Title => StartEditingTitle(a)
    case Description => StartEditingDescription(a)
    case Tags => a
  }

  /** `remove_tag(k)`: out-of-range indices are ignored. */
  function RemoveTag(a: App, k: nat): (r: App)
    requires HasBoard(a)
    ensures r == a.(projects := r.projects, lastSaved := r.lastSaved)
    ensures !(HasSelectedTask(a) && k < |Columns(a)[a.selectedColumn].tasks[a.selectedIndex].tags|) ==> r == a
    ensures HasSelectedTask(a) && k < |Columns(a)[a.selectedColumn].tasks[a.selectedIndex].tags| ==>
      var t := Columns(a)[a.selectedColumn].tasks[a.selectedIndex];
      && HasSelectedTask(r)
      && OnlyTaskChanged(Columns(a), Columns(r), a.selectedColumn, a.selectedIndex)
      && Columns(r)[a.selectedColumn].tasks[a.selectedIndex] == t.(tags := RemoveAt(t.tags, k))
      && SameProjectsExceptBoard(a, r) && SameInput(a, r)
      && r.selectedColumn == a.selectedColumn && r.selectedIndex == a.selectedIndex
      && r.lastSaved == Some(r.projects)
    ensures Valid(a) ==> Valid(r)
    ensures Invariant(a) ==> Invariant(r)
  {
    if HasSelectedTask(a) then
      var t := Columns(a)[a.selectedColumn].tasks[a.selectedIndex];
      if k < |t.tags| then Save(UpdateTask(a, t.(tags := RemoveAt(t.tags, k)))) else a
    else a
  }

  /** A digit key in the detail view: with Tags focused, '1' to '9' remove tag `digit - 1`. */
  function TagKey(a: App, ch: char): (r: App)
    requires HasBoard(a)
    ensures !(a.focusedField == Tags && '1' <= ch <= '9') ==> r == a
    ensures a.focusedField == Tags && '1' <= ch <= '9' ==> r == RemoveTag(a, ch as int - '1' as int)
    ensures Valid(a) ==> Valid(r)
    ensures Invariant(a) ==> Invariant(r)
  {
    if a.focusedField == Tags && '1' <= ch <= '9' then RemoveTag(a, ch as int - '1' as int) else a
  }

  /** `show_help`. */
  function ShowHelp(a: App): (r: App)
    ensures r.inputMode == ViewingHelp
    ensures r == a.(inputMode := r.inputMode)
    ensures UiOnly(a, r) && r.inputBuffer == a.inputBuffer
    ensures r.selectedProjectIndex == a.selectedProjectIndex
  {
    a.(inputMode := ViewingHelp)
  }

  /** `close_view`: back to Normal from the detail, help or project views. */
  function CloseView(a: App): (r: App)
    ensures r.inputMode == Normal && r.inputBuffer == []
    ensures r == a.(inputMode := r.inputMode, inputBuffer := r.inputBuffer)
    ensures UiOnly(a, r) && r.selectedProjectIndex == a.selectedProjectIndex
  {
    a.(inputMode := Normal, inputBuffer := [])
  }
}

=== FILE: wrappers.dfy ===
/** The optional value returned by bounds-checked lookups (Rust's `Option`). */
module Wrappers {

  datatype Option<+T> = None | Some(value: T)
}
